=== FILE: README.md ===
# Course-search relevance engine, modelled in Dafny

This project models the relevance engine behind the course-search endpoint
of an online-learning server (`server/controllers/search.controller.js`).
It covers the following parts:

- **Query preprocessing.** The query is lower-cased, punctuation becomes
  blanks, the text is split on whitespace, and tokens of one character are
  dropped.
- **Seven scoring signals.** These are title, subtitle and category
  similarity, description relevance, popularity, lecture-title relevance,
  and a keyword-bucket "semantic" bonus. Similarity combines containment,
  word overlap and a Levenshtein-distance score.
- **Combining the signals.** The weighted signals add up to a capped
  `aiScore` and an uncapped `relevancePercentage`.
- **Ranking.** The five `sortBy` orderings are applied as a stable sort.
- **Insights.** The summary block reports the average price, levels,
  categories, top match, and up to three recommendations with reasons.
- **Suggestions.** Refinements of the query are suggested alongside the
  results.
- **Request flow.** The flow of `aiSearchCourses` is modelled, with the
  candidate courses that the database returns passed in as a parameter.
- **Autocomplete.** The post-processing in `getSearchSuggestions` is
  modelled over the rows the lookup returned.

Files and modules:

| file | module | contents |
|---|---|---|
| `wrappers.dfy` | `Wrappers` | `Option` |
| `text.dfy` | `Text` | JavaScript string operations on `seq<char>`: `toLowerCase` (ASCII), `includes`, `split(/\s+/)`, `trim`, `join`, number formatting |
| `seqs.dfy` | `Seqs` | `[...new Set(s)]`, `slice(0, n)`, `filter(Boolean)` |
| `levenshtein.dfy` | `Levenshtein` | the edit-distance recurrence and the matrix algorithm |
| `similarity.dfy` | `TextSimilarity` | `calculateSimilarity` |
| `query.dfy` | `Query` | `preprocessQuery` |
| `courses.dfy` | `Courses` | the course, lecture, breakdown and scored-course records |
| `signals.dfy` | `Signals` | description, popularity, lecture and semantic signals, and `findMatchedTerms` |
| `scoring.dfy` | `Scoring` | `applyAIScoring` |
| `ranking.dfy` | `Ranking` | `sortResults` |
| `insights.dfy` | `Insights` | `generateSearchInsights`, `getRecommendationReason`, `generateSearchSuggestions` |
| `search.dfy` | `Search` | `aiSearchCourses` and the autocomplete post-processing |

Modelling conventions:

- **Optional fields.** A JavaScript value that may be missing is an
  `Option`. `x || ''` is `OrEmpty`. A string is truthy when it is present
  and non-empty (`Truthy`).
- **Numbers.** They are exact `real`s. `Math.round(x)` is `floor(x + 1/2)`,
  which agrees with JavaScript for every real, negative ones included.
  Counts are `nat`.
- **Whitespace.** `\s` is the ECMAScript white-space and line-terminator
  set, and `trim` removes the same set. `split(/\s+/)` keeps an empty
  first or last piece when the text begins or ends with whitespace, and
  `"".split(/\s+/)` is `[""]`. The model keeps both behaviours because
  they change word-overlap counts (`LeadingSpaceOverlap`).
- **Sorting.** The five orderings are all an ascending stable sort on one
  real key. The descending orderings negate the key. `Array.prototype.sort`
  is stable, so this gives the same order as the source's comparators.
- **Reason separator.** The separator between recommendation reasons is
  written in the source as the three characters U+00E2 U+20AC U+00A2. That
  is a UTF-8 bullet read back as Windows-1252. The model keeps those exact
  characters.

Two behaviours of the code are easy to misread:

- **`relevancePercentage`.** The code computes it from the uncapped total
  (`Math.round(totalScore * 100)`), so it is not capped at 100: it ranges
  up to 130 (`Scoring.ScoreCourse`, `Scoring.PercentageReaches120`).
- **Missing `createdAt`.** The `newest` ordering treats a missing
  `createdAt` as the epoch (`new Date(0)`), not as the earliest possible
  instant. A course dated before 1970 therefore sorts after an undated
  one.

## Model

| member | source | states |
|---|---|---|
| Query.Preprocess | server/controllers/search.controller.js:214-224 | a missing or empty query has no terms; every term is at least two characters, all lower-case word characters |
| Query.PreprocessPunctuation | server/controllers/search.controller.js:219-221 | a character that is neither a word character nor whitespace separates terms exactly as a space does, so "react.js" gives the terms of "react" followed by those of "js" |
| Query.PreprocessConcat | server/controllers/search.controller.js:214-224 | the terms of two queries joined by a blank are the terms of the first followed by those of the second (order kept, no deduplication) |
| Query.PreprocessWord | server/controllers/search.controller.js:214-224 | a single word of two or more word characters yields exactly its lower-cased self |
| Query.PreprocessKeepsRepeats | server/controllers/search.controller.js:214-224 | a word typed twice gives its term twice |
| Levenshtein.EditDistance | server/controllers/search.controller.js:258-284 | the recurrence of the matrix, on prefixes; bounded below by the length difference and above by the longer length |
| Levenshtein.Distance | server/controllers/search.controller.js:258-284 | the matrix algorithm computes exactly the edit distance of the recurrence |
| Levenshtein.EditDistanceEmpty | server/controllers/search.controller.js:261-267 | distance to the empty string is the other string's length |
| Levenshtein.EditDistanceZero | server/controllers/search.controller.js:258-284 | distance is zero exactly when the strings are equal |
| Levenshtein.EditDistanceSymmetric | server/controllers/search.controller.js:258-284 | distance does not depend on argument order |
| TextSimilarity.Overlap | server/controllers/search.controller.js:239-249 | word overlap lies in [0, 1] |
| TextSimilarity.LevenshteinScore | server/controllers/search.controller.js:252 | the fuzzy score lies in [0, 1] and is below 1 for different strings |
| TextSimilarity.Similarity | server/controllers/search.controller.js:227-255 | in [0, 1]; 0 when either text is missing or empty; 1 when either lower-cased text contains the other; otherwise the larger of the word overlap and 0.7 times the edit-distance score of the lower-cased texts, so never below either |
| TextSimilarity.SimilarityReflexive | server/controllers/search.controller.js:233-235 | any present, non-empty text is fully similar to itself |
| TextSimilarity.SimilarityIgnoresCase | server/controllers/search.controller.js:230-231 | lower-casing either argument first changes nothing |
| TextSimilarity.FuzzyWordsBelowExact | server/controllers/search.controller.js:239-254 | two single words neither containing the other score below 0.7, so only containment reaches the top |
| TextSimilarity.EmptyWordMatchesAll | server/controllers/search.controller.js:243-247 | an empty word among the first text's words matches every word of the second |
| TextSimilarity.LeadingSpaceOverlap | server/controllers/search.controller.js:239-249 | a first text starting with whitespace gives full word-overlap count, because its leading empty piece is contained in every word |
| Signals.DescriptionRelevance | server/controllers/search.controller.js:287-303 | in [0, 1]; positive exactly when the description is present and some description word and some term contain one another |
| Signals.Popularity | server/controllers/search.controller.js:306-313 | in [0, 1]; exactly 1 when there are at least 100 enrolments and 20 lectures |
| Signals.PopularityMonotonic | server/controllers/search.controller.js:306-313 | more enrolments or lectures never lower the score |
| Signals.PopularityMissingIsZero | server/controllers/search.controller.js:307-308 | a missing or negative enrolment count scores as zero enrolments, and a missing or negative lecture count as zero lectures |
| Signals.PopularitySaturates | server/controllers/search.controller.js:310-311 | counts beyond 100 enrolments and 20 lectures add nothing |
| Signals.LectureRelevance | server/controllers/search.controller.js:316-330 | in [0, 0.1]; positive exactly when there are terms and some lecture title contains one |
| Signals.SemanticSimilarity | server/controllers/search.controller.js:333-359 | 0, 0.1 or 0.2; zero exactly when no (term, keyword bucket) pair fires for the course text |
| Signals.AiFiresInsideWords | server/controllers/search.controller.js:333-359 | the keyword `ai` is matched by substring, so the term `training` fires the data bucket |
| Signals.MultiWordKeywordNeverInTerm | server/controllers/search.controller.js:336-352 | no whitespace-free term can contain the keyword `machine learning` |
| Signals.MatchedTerms | server/controllers/search.controller.js:362-367 | a subsequence of the terms holding each non-empty term found in the lower-cased title, subtitle and description as many times as the query holds it, and no other term |
| Signals.MatchedTermsConcat | server/controllers/search.controller.js:366 | the matches of a concatenated term list are the matches of each part, concatenated |
| Signals.MatchedTermsKeepRepeats | server/controllers/search.controller.js:366 | a found term given twice is reported twice |
| Scoring.ScoreCourse | server/controllers/search.controller.js:163-209 | every contribution within its weight or cap; total in [0, 1.3]; aiScore the total capped at 1; percentage the rounded uncapped total times 100, hence in [0, 130] |
| Scoring.ApplyAIScoring | server/controllers/search.controller.js:157-211 | one scored entry per course, in input order, all scored against the same terms |
| Scoring.TitleContainingQuery | server/controllers/search.controller.js:169-170 | a title containing the query earns the full 0.4 and an aiScore of at least 0.4 |
| Scoring.TitleCaseIgnored | server/controllers/search.controller.js:227-235 | the case of the title does not affect its score |
| Scoring.PercentageBeyondHundred | server/controllers/search.controller.js:205-207 | once the total reaches 1.005 the percentage exceeds 100 while aiScore is 1 |
| Scoring.PercentageReaches120 | server/controllers/search.controller.js:163-209 | a concrete course about `coding` queried with `coding` gets a percentage of at least 120 |
| Ranking.ParseSortBy | server/controllers/search.controller.js:370-390 | each of the four named orderings is chosen exactly by its name; absent or unknown values fall back to relevance |
| Ranking.Sort | server/controllers/search.controller.js:370-390 | the result is a permutation of the input, ordered by the mode's key |
| Ranking.SortStable | server/controllers/search.controller.js:370-390 | courses with equal keys keep their input order |
| Ranking.SortOrders | server/controllers/search.controller.js:373-389 | per ordering: cheapest first, dearest first, most enrolled first, newest first, or highest aiScore first |
| Ranking.MissingFieldsDefault | server/controllers/search.controller.js:375-384 | a course without a price sorts as price 0, and one without a creation date as created at the epoch |
| Insights.Reason | server/controllers/search.controller.js:433-447 | the default text is returned exactly when no reason applies; otherwise every applicable reason appears in the text |
| Insights.ReasonExactly | server/controllers/search.controller.js:436-447 | when no matched term has a capital letter, each fixed reason text appears in the explanation if and only if its threshold test passes, and "Matches: " appears if and only if some term matched |
| Insights.ScoredTermsPlain | server/controllers/search.controller.js:214-224 | matched terms come from the lower-cased query terms and so carry no capital letter: every scored course meets the premise of the reason-text equivalences |
| Insights.RelevantContentUnreachable | server/controllers/search.controller.js:440 | "Relevant content" is never given: the weighted description relevance is at most 0.2 and the test is `> 0.2` |
| Insights.TitleMatchReason | server/controllers/search.controller.js:439 | a title containing the query always earns "Strong title match" |
| Insights.PopularReason | server/controllers/search.controller.js:441 | "Popular among students" is given exactly when the raw popularity exceeds 0.6 |
| Insights.GenerateInsights | server/controllers/search.controller.js:393-430 | the canned answer exactly for no results; otherwise top match and up to three recommendations from the head of the list, the rounded mean price, the distinct present levels, the first five distinct present categories, and the summary built from the course count and the top match's percentage |
| Insights.LevelsInFirstOccurrenceOrder | server/controllers/search.controller.js:414 | levels are listed in the order of their first appearance among the ranked courses |
| Insights.CategoriesInFirstOccurrenceOrder | server/controllers/search.controller.js:415-422 | categories are listed in the order of their first appearance, and there are five of them unless fewer distinct ones exist |
| Insights.InsightsSummary | server/controllers/search.controller.js:419 | the summary starts with "Found " followed by digits that read back as the number of courses, and ends with digits reading back as the top match's percentage followed by "% match" |
| Insights.SummaryReadBack | server/controllers/search.controller.js:419 | both numbers of any summary text can be read back from their positions in it |
| Insights.SummaryPercentage | server/controllers/search.controller.js:419 | a non-negative top percentage can be read back from the digits just before the closing "% match" of the summary text |
| Insights.InsightsAveragePrice | server/controllers/search.controller.js:413-420 | the reported average price lies between the rounded cheapest and dearest prices |
| Insights.AveragePriceBounds | server/controllers/search.controller.js:413-420 | the rounded mean price lies between the rounded lowest and highest prices |
| Insights.SummaryCount | server/controllers/search.controller.js:419 | the number of courses can be read back from the digits of the summary text |
| Insights.Suggestions | server/controllers/search.controller.js:450-477 | none exactly for a missing or empty query; otherwise exactly five distinct candidates: the first five distinct entries among category variants, level variants and refinements |
| Insights.SuggestionsOrder | server/controllers/search.controller.js:455-474 | category variants come first, then level variants, then refinements |
| Insights.SuggestionsWithoutResults | server/controllers/search.controller.js:466-476 | with no results the suggestions are the five refinements, in order |
| Insights.FirstSuggestionCategory | server/controllers/search.controller.js:455-458 | with results, the first suggestion is the query in the first category present |
| Search.AiSearchCourses | server/controllers/search.controller.js:5-77 | 400 exactly for a missing or short trimmed query; canned empty answer when nothing was fetched; otherwise all fetched courses, scored, sorted by the requested ordering, counted, with the five suggestions built from the sorted results; courses that tie on the sort key keep the order they were fetched in |
| Search.RejectionIgnoresData | server/controllers/search.controller.js:9-14 | a rejected query is rejected whatever the fetched data and ordering |
| Search.ResultsComeFromFetched | server/controllers/search.controller.js:50-61 | every returned course is one of the fetched courses |
| Search.DefaultOrderBestFirst | server/controllers/search.controller.js:387-388 | without `sortBy`, results are in non-increasing aiScore order |
| Search.Autocomplete | server/controllers/search.controller.js:484-516 | empty for a missing or one-character query; otherwise at most eight distinct, non-empty titles or categories of the first ten rows |
| Search.TitlesFirst | server/controllers/search.controller.js:513-516 | a title suggestion is preceded only by title suggestions |
| Search.AutocompleteOrder | server/controllers/search.controller.js:513-516 | suggestions keep the order in which their labels first appear |
| Search.OnlyFirstTenRows | server/controllers/search.controller.js:510 | rows beyond the first ten never contribute |
| Search.BlankQueryValidation | server/controllers/search.controller.js:9-14 | two blanks are rejected by search (trimmed) but accepted by autocomplete (untrimmed) |

## Left out

- The database aggregation pipeline (`buildSearchPipeline`, lines 80-154) is not modelled. Its candidate list and the autocomplete lookup rows are parameters.
- The analytics endpoint (lines 533-562) is not modelled.
- Express request and response handling is not modelled. Responses are values; the 500 path for thrown errors is not modelled, including the autocomplete failure described below.
- Non-string `query`, `text1`, `text2` and description values (`typeof` checks) are not modelled. Every such input is a string or missing.
- The "No valid courses found" branch of `generateSearchInsights` (lines 405-411) is not modelled. Every modelled course is an object, so the branch cannot be reached.
- `course.lectures` null or containing null entries is not modelled. Lectures are always a sequence of records.
- Floating point is not modelled. Scores are exact reals, so IEEE rounding of sums such as `0.1 + 0.2` is absent, and so is its effect on thresholds and `Math.round`.
- `toLowerCase` is modelled for ASCII letters only. Unicode case mapping is not.
- Strings are sequences of code points, while JavaScript's `length`, indexing and `charAt` count UTF-16 code units. A character outside the Basic Multilingual Plane (an emoji, say) therefore counts once here and twice in the source. This affects the two-character minimum of search (`Search.Rejected`) and of autocomplete (`Search.AutocompleteSkipped`), and the lengths and distances in `TextSimilarity.LevenshteinScore`. Text made only of BMP characters behaves identically.
- TextSimilarity.LevenshteinScore: lengths and edit distances count code points, not UTF-16 code units, for the reason in the line above.
- Search.AiSearchCourses: the two-character minimum counts code points, so a query of one emoji is rejected here and accepted by the source.
- Search.Autocomplete: the two-character minimum counts code points, so a one-emoji query is skipped here and looked up by the source.
- The `$regex` interpretation of the autocomplete query is not modelled. For a valid pattern it decides which rows the lookup returns, and those rows are a parameter. A query that is not a valid pattern (such as `(ab`) makes the lookup throw, and the source answers 500 (lines 489-508 and 523-528); the model has no such failure and returns suggestions from the given rows.
- `creatorName` and any other fields the scorer never reads are not part of the course record.
- Timestamps are epoch milliseconds (`int`); `Date` parsing is not modelled.

=== FILE: courses.dfy ===
/**
 * The records the search works on: a candidate course as the database
 * fetch delivers it (creator and lecture summaries joined in, enrolment and
 * lecture counts derived), and a scored course with its score breakdown.
 */
module Courses {
  import opened Wrappers

  /** A lecture summary: `{lectureTitle, isPreviewFree}`. */
  datatype Lecture = Lecture(title: Option<string>, isPreviewFree: bool)

  /**
   * A published course matching the structural filters. `enrolledCount` is
   * the size of the enrolment array. `lectures` holds the lecture summaries
   * that the join found, and `lectureCount` is taken after that join, so a
   * fetched course has `lectureCount == |lectures|`; the field is kept
   * separate because the popularity score reads it on its own, and no
   * contract relies on the equation.
   */
  datatype Course = Course(
    id: nat,
    title: Option<string>,
    subtitle: Option<string>,
    description: Option<string>,
    category: Option<string>,
    level: Option<string>,
    price: Option<real>,
    createdAt: Option<int>,
    enrolledCount: nat,
    lectureCount: nat,
    lectures: seq<Lecture>)

  /** The seven signal contributions of `scoreBreakdown`. */
  datatype Breakdown = Breakdown(
    titleMatch: real,
    subtitleMatch: real,
    descriptionRelevance: real,
    categoryMatch: real,
    popularityBoost: real,
    lectureRelevance: real,
    semanticSimilarity: real)
  {
    /** The unclamped sum of all seven contributions. */
    function Total(): real
    {
      titleMatch + subtitleMatch + descriptionRelevance + categoryMatch
      + popularityBoost + lectureRelevance + semanticSimilarity
    }

    /** Every contribution is non-negative and at most its weight or cap. */
    predicate WithinCaps()
    {
      && 0.0 <= titleMatch <= 0.4
      && 0.0 <= subtitleMatch <= 0.25
      && 0.0 <= descriptionRelevance <= 0.2
      && 0.0 <= categoryMatch <= 0.1
      && 0.0 <= popularityBoost <= 0.05
      && 0.0 <= lectureRelevance <= 0.1
      && 0.0 <= semanticSimilarity <= 0.2
    }
  }

  /** A course with the fields `applyAIScoring` adds to it. */
  datatype Scored = Scored(
    course: Course,
    aiScore: real,
    breakdown: Breakdown,
    relevancePercentage: int,
    matchedTerms: seq<string>)
}

=== FILE: insights.dfy ===
/**
 * `generateSearchInsights`, `getRecommendationReason` and
 * `generateSearchSuggestions`: the summary block, the per-course reason
 * text and the query refinements shown next to the ranked results.
 */
module Insights {
  import opened Wrappers
  import opened Text
  import opened Seqs
  import opened Courses
  import opened Signals
  import opened Scoring
  import opened Query
  import Ranking

  // ---------------------------------------------------------------------
  // Recommendation reasons (`getRecommendationReason`)

  /** The separator between reasons: U+2022 as the source's mis-decoded bytes `E2 80 A2`. */
  const Bullet: string := " \U{00E2}\U{20AC}\U{00A2} "

  const DefaultReason: string := "Good overall match"

  /** One recommendation reason. */
  datatype ReasonKind = StrongTitle | RelevantContent | PopularAmongStudents | Matches(terms: seq<string>)

  function ReasonText(k: ReasonKind): (t: string)
    ensures |t| > 0 && t[0] in {'S', 'R', 'P', 'M'}
  {
    match k
    case StrongTitle => "Strong title match"
    case RelevantContent => "Relevant content"
    case PopularAmongStudents => "Popular among students"
    case Matches(terms) => "Matches: " + Join(terms, ", ")
  }

  /** The reasons that apply to a scored course, in the source's order. */
  function Reasons(s: Scored): (r: seq<ReasonKind>)
    ensures |r| <= 4
  {
    (if s.breakdown.titleMatch > 0.3 then [StrongTitle] else [])
    + (if s.breakdown.descriptionRelevance > 0.2 then [RelevantContent] else [])
    + (if s.breakdown.popularityBoost > 0.03 then [PopularAmongStudents] else [])
    + (if |s.matchedTerms| > 0 then [Matches(s.matchedTerms)] else [])
  }

  function Texts(reasons: seq<ReasonKind>): (r: seq<string>)
    ensures |r| == |reasons|
    ensures forall i :: 0 <= i < |r| ==> r[i] == ReasonText(reasons[i])
  {
    seq(|reasons|, i requires 0 <= i < |reasons| => ReasonText(reasons[i]))
  }

  /**
   * `getRecommendationReason(course, query)`: the reasons joined by the
   * bullet separator, or the default text exactly when no reason applies.
   */
  function Reason(s: Scored): (r: string)
    ensures r == DefaultReason <==> Reasons(s) == []
    ensures forall i :: 0 <= i < |Reasons(s)| ==> Contains(r, ReasonText(Reasons(s)[i]))
  {
    var texts := Texts(Reasons(s));
    JoinReasons(texts);
    var joined := Join(texts, Bullet);
    if joined == "" then DefaultReason else joined
  }

  lemma JoinReasons(texts: seq<string>)
    requires forall i :: 0 <= i < |texts| ==> |texts[i]| > 0 && texts[i][0] in {'S', 'R', 'P', 'M'}
    ensures Join(texts, Bullet) == "" <==> texts == []
    ensures Join(texts, Bullet) != DefaultReason
    ensures forall i :: 0 <= i < |texts| ==> Contains(Join(texts, Bullet), texts[i])
  {
    var joined := Join(texts, Bullet);
    if |texts| > 0 {
      assert joined[0] == texts[0][0];
      forall i | 0 <= i < |texts| ensures Contains(joined, texts[i]) {
        JoinContains(texts, Bullet, i);
      }
    }
  }

  /** The matched terms carry no capital letter, as every preprocessed term is lower-case. */
  predicate PlainTerms(s: Scored)
  {
    forall j :: 0 <= j < |s.matchedTerms| ==> NoCapitals(s.matchedTerms[j])
  }

  /** The only capital in a reason text is its first character. */
  lemma ReasonTextCapital(k: ReasonKind, c: char)
    requires 'A' <= c <= 'Z' && c in ReasonText(k)
    requires k.Matches? ==> forall j :: 0 <= j < |k.terms| ==> NoCapitals(k.terms[j])
    ensures c == ReasonText(k)[0]
  {
    if k.Matches? {
      var tail := Join(k.terms, ", ");
      assert ReasonText(k) == "Matches: " + tail;
      if c !in "Matches: " {
        assert c in tail;
        JoinChar(k.terms, ", ", c);
      }
    }
  }

  lemma BulletHasNoCapital(c: char)
    requires 'A' <= c <= 'Z'
    ensures c !in Bullet
  {
  }

  lemma DefaultReasonCapital(c: char)
    requires 'A' <= c <= 'Z' && c in DefaultReason
    ensures c == 'G'
  {
  }

  /** The reason text is the default or the bullet-joined reason texts. */
  lemma ReasonShape(s: Scored)
    ensures Reasons(s) == [] ==> Reason(s) == DefaultReason
    ensures Reasons(s) != [] ==> Reason(s) == Join(Texts(Reasons(s)), Bullet)
  {
    JoinReasons(Texts(Reasons(s)));
  }

  /** A capital in joined reason texts is the first letter of one of them. */
  lemma JoinedCapital(rs: seq<ReasonKind>, c: char)
    requires forall i :: 0 <= i < |rs| ==> rs[i].Matches? ==> forall j :: 0 <= j < |rs[i].terms| ==> NoCapitals(rs[i].terms[j])
    requires 'A' <= c <= 'Z' && c in Join(Texts(rs), Bullet)
    ensures exists i :: 0 <= i < |rs| && c == ReasonText(rs[i])[0]
  {
    var texts := Texts(rs);
    BulletHasNoCapital(c);
    JoinChar(texts, Bullet, c);
    var i :| 0 <= i < |texts| && c in texts[i];
    ReasonTextCapital(rs[i], c);
  }

  /** A capital in the reason text is the default's `G` or the first letter of an applicable reason. */
  lemma ReasonCapital(s: Scored, c: char)
    requires PlainTerms(s)
    requires 'A' <= c <= 'Z' && c in Reason(s)
    ensures (Reasons(s) == [] && c == 'G')
         || exists i :: 0 <= i < |Reasons(s)| && c == ReasonText(Reasons(s)[i])[0]
  {
    var rs := Reasons(s);
    ReasonShape(s);
    if rs == [] {
      DefaultReasonCapital(c);
    } else {
      assert forall i :: 0 <= i < |rs| ==> rs[i].Matches? ==> rs[i].terms == s.matchedTerms;
      JoinedCapital(rs, c);
    }
  }

  /** A text starting with a capital other than `G` appears only when a reason starting with that capital applies. */
  lemma CapitalOnlyIfApplies(s: Scored, t: string)
    requires PlainTerms(s)
    requires |t| > 0 && 'A' <= t[0] <= 'Z' && t[0] != 'G'
    requires Contains(Reason(s), t)
    ensures exists i :: 0 <= i < |Reasons(s)| && ReasonText(Reasons(s)[i])[0] == t[0]
  {
    ContainsChar(Reason(s), t, 0);
    ReasonCapital(s, t[0]);
  }

  /** Which reasons apply, read off the breakdown and the matched terms. */
  lemma AppliesIff(s: Scored)
    ensures StrongTitle in Reasons(s) <==> s.breakdown.titleMatch > 0.3
    ensures RelevantContent in Reasons(s) <==> s.breakdown.descriptionRelevance > 0.2
    ensures PopularAmongStudents in Reasons(s) <==> s.breakdown.popularityBoost > 0.03
    ensures Matches(s.matchedTerms) in Reasons(s) <==> |s.matchedTerms| > 0
  {
  }

  /** The first letter of a reason text tells the reasons apart. */
  lemma FirstLetters(k: ReasonKind)
    ensures ReasonText(k)[0] == 'S' <==> k == StrongTitle
    ensures ReasonText(k)[0] == 'R' <==> k == RelevantContent
    ensures ReasonText(k)[0] == 'P' <==> k == PopularAmongStudents
    ensures ReasonText(k)[0] == 'M' <==> k.Matches?
  {
  }

  /** A text opening with the first letter of a reason appears only if that reason applies. */
  lemma NamedOnlyIfApplies(s: Scored, t: string) returns (k: ReasonKind)
    requires PlainTerms(s)
    requires |t| > 0 && t[0] in {'S', 'R', 'P', 'M'}
    requires Contains(Reason(s), t)
    ensures k in Reasons(s) && ReasonText(k)[0] == t[0]
  {
    CapitalOnlyIfApplies(s, t);
    var i :| 0 <= i < |Reasons(s)| && ReasonText(Reasons(s)[i])[0] == t[0];
    k := Reasons(s)[i];
  }

  /** Every applicable reason is named in the reason text. */
  lemma Mentioned(s: Scored, k: ReasonKind)
    requires k in Reasons(s)
    ensures Contains(Reason(s), ReasonText(k))
  {
    var i :| 0 <= i < |Reasons(s)| && Reasons(s)[i] == k;
  }

  lemma StrongTitleIff(s: Scored)
    requires PlainTerms(s)
    ensures Contains(Reason(s), "Strong title match") <==> s.breakdown.titleMatch > 0.3
  {
    AppliesIff(s);
    if Contains(Reason(s), "Strong title match") {
      var k := NamedOnlyIfApplies(s, "Strong title match");
      FirstLetters(k);
    }
    if s.breakdown.titleMatch > 0.3 {
      Mentioned(s, StrongTitle);
    }
  }

  lemma RelevantContentIff(s: Scored)
    requires PlainTerms(s)
    ensures Contains(Reason(s), "Relevant content") <==> s.breakdown.descriptionRelevance > 0.2
  {
    AppliesIff(s);
    if Contains(Reason(s), "Relevant content") {
      var k := NamedOnlyIfApplies(s, "Relevant content");
      FirstLetters(k);
    }
    if s.breakdown.descriptionRelevance > 0.2 {
      Mentioned(s, RelevantContent);
    }
  }

  lemma PopularIffText(s: Scored)
    requires PlainTerms(s)
    ensures Contains(Reason(s), "Popular among students") <==> s.breakdown.popularityBoost > 0.03
  {
    AppliesIff(s);
    if Contains(Reason(s), "Popular among students") {
      var k := NamedOnlyIfApplies(s, "Popular among students");
      FirstLetters(k);
    }
    if s.breakdown.popularityBoost > 0.03 {
      Mentioned(s, PopularAmongStudents);
    }
  }

  lemma MatchesIff(s: Scored)
    requires PlainTerms(s)
    ensures Contains(Reason(s), "Matches: ") <==> |s.matchedTerms| > 0
  {
    assert Contains(Reason(s), "Matches: ") ==> |s.matchedTerms| > 0 by {
      if Contains(Reason(s), "Matches: ") {
        var k := NamedOnlyIfApplies(s, "Matches: ");
        FirstLetters(k);
        AppliesIff(s);
      }
    }
    assert |s.matchedTerms| > 0 ==> Contains(Reason(s), "Matches: ") by {
      if |s.matchedTerms| > 0 {
        AppliesIff(s);
        Mentioned(s, Matches(s.matchedTerms));
        ContainsPrefix(Reason(s), "Matches: ", Join(s.matchedTerms, ", "));
      }
    }
  }

  /**
   * Read in both directions, the reason text names exactly the reasons
   * that apply: each fixed text appears if and only if its test passes,
   * and the matched-terms part if and only if some term matched.
   */
  lemma ReasonExactly(s: Scored)
    requires PlainTerms(s)
    ensures Contains(Reason(s), "Strong title match") <==> s.breakdown.titleMatch > 0.3
    ensures Contains(Reason(s), "Relevant content") <==> s.breakdown.descriptionRelevance > 0.2
    ensures Contains(Reason(s), "Popular among students") <==> s.breakdown.popularityBoost > 0.03
    ensures Contains(Reason(s), "Matches: ") <==> |s.matchedTerms| > 0
  {
    StrongTitleIff(s);
    RelevantContentIff(s);
    PopularIffText(s);
    MatchesIff(s);
  }

  /** Matched terms are drawn from the preprocessed terms, which are lower-case. */
  lemma MatchedTermsPlain(c: Course, query: string)
    ensures var m := MatchedTerms(c, Preprocess(Some(query)));
      forall j :: 0 <= j < |m| ==> NoCapitals(m[j])
  {
    var terms := Preprocess(Some(query));
    var m := MatchedTerms(c, terms);
    forall j | 0 <= j < |m| ensures NoCapitals(m[j]) {
      assert m[j] in terms;
      var k :| 0 <= k < |terms| && terms[k] == m[j];
      assert IsTerm(terms[k]);
    }
  }

  /** Courses scored against preprocessed terms meet the premise of `ReasonExactly`. */
  lemma ScoredTermsPlain(c: Course, query: string)
    ensures PlainTerms(ScoreCourse(c, query, Preprocess(Some(query))))
  {
    MatchedTermsPlain(c, query);
  }

  /**
   * The "Relevant content" reason is never given to a scored course: the
   * weighted description relevance is at most 0.2 and the test is `> 0.2`.
   */
  lemma RelevantContentUnreachable(c: Course, query: string, terms: seq<string>)
    ensures RelevantContent !in Reasons(ScoreCourse(c, query, terms))
  {
    NoRelevantContent(ScoreCourse(c, query, terms));
  }

  lemma NoRelevantContent(s: Scored)
    requires s.breakdown.WithinCaps()
    ensures RelevantContent !in Reasons(s)
  {
  }

  /** A title containing the query always earns "Strong title match". */
  lemma TitleMatchReason(c: Course, query: string, terms: seq<string>)
    requires Truthy(c.title) && query != ""
    requires Contains(Lower(c.title.value), Lower(query))
    ensures Contains(Reason(ScoreCourse(c, query, terms)), "Strong title match")
  {
    var s := ScoreCourse(c, query, terms);
    TitleContainingQuery(c, query, terms);
    assert Reasons(s)[0] == StrongTitle;
  }

  /** "Popular among students" is given exactly when the raw popularity exceeds 0.6. */
  lemma PopularReason(c: Course, query: string, terms: seq<string>)
    ensures PopularAmongStudents in Reasons(ScoreCourse(c, query, terms))
        <==> Popularity(Some(c.enrolledCount), Some(c.lectureCount)) > 0.6
  {
    var s := ScoreCourse(c, query, terms);
    PopularIff(s);
  }

  lemma PopularIff(s: Scored)
    ensures PopularAmongStudents in Reasons(s) <==> s.breakdown.popularityBoost > 0.03
  {
  }

  // ---------------------------------------------------------------------
  // Insights (`generateSearchInsights`)

  datatype Recommendation = Recommendation(title: string, relevance: int, reason: string)

  datatype Insights =
    | NoResults(summary: string, tips: seq<string>)
    | Overview(
        summary: string,
        averagePrice: int,
        availableLevels: seq<string>,
        popularCategories: seq<string>,
        topMatchTitle: string,
        recommendations: seq<Recommendation>)

  const NoResultsSummary: string := "No courses found matching your search criteria"

  const NoResultsTips: seq<string> := [
    "Try using broader search terms",
    "Check your spelling",
    "Remove filters to see more results"
  ]

  function IntToString(i: int): string
  {
    if i < 0 then "-" + NatToString(-i) else NatToString(i)
  }

  /** `course?.courseTitle || 'Unknown'`. */
  function TitleOrUnknown(c: Course): (t: string)
    ensures t != ""
    ensures Truthy(c.title) ==> t == c.title.value
  {
    if Truthy(c.title) then c.title.value else "Unknown"
  }

  function PriceSum(s: seq<Scored>): real
    decreases |s|
  {
    if |s| == 0 then 0.0 else Ranking.Price(s[0]) + PriceSum(s[1..])
  }

  lemma {:induction false} PriceSumBounds(s: seq<Scored>, lo: real, hi: real)
    requires forall i :: 0 <= i < |s| ==> lo <= Ranking.Price(s[i]) <= hi
    ensures |s| as real * lo <= PriceSum(s) <= |s| as real * hi
    decreases |s|
  {
    if |s| > 0 {
      PriceSumBounds(s[1..], lo, hi);
      assert Ranking.Price(s[0]) == Ranking.Price(s[..][0]);
      assert |s| as real * lo == lo + (|s| - 1) as real * lo;
      assert |s| as real * hi == hi + (|s| - 1) as real * hi;
    }
  }

  /** `Math.round(sum of (coursePrice || 0) / count)`. */
  function AveragePrice(s: seq<Scored>): int
    requires |s| > 0
  {
    Round(PriceSum(s) / |s| as real)
  }

  /** The reported average price lies between the rounded cheapest and dearest prices. */
  lemma InsightsAveragePrice(courses: seq<Scored>, lo: real, hi: real)
    requires |courses| > 0
    requires forall i :: 0 <= i < |courses| ==> lo <= Ranking.Price(courses[i]) <= hi
    ensures Round(lo) <= GenerateInsights(courses).averagePrice <= Round(hi)
  {
    AveragePriceBounds(courses, lo, hi);
  }

  /** The average price lies between the rounded cheapest and dearest prices. */
  lemma AveragePriceBounds(s: seq<Scored>, lo: real, hi: real)
    requires |s| > 0
    requires forall i :: 0 <= i < |s| ==> lo <= Ranking.Price(s[i]) <= hi
    ensures Round(lo) <= AveragePrice(s) <= Round(hi)
  {
    PriceSumBounds(s, lo, hi);
    var n := |s| as real;
    var avg := PriceSum(s) / n;
    assert avg * n == PriceSum(s);
    assert lo <= avg by {
      assert (avg - lo) * n == PriceSum(s) - n * lo;
    }
    assert avg <= hi by {
      assert (hi - avg) * n == n * hi - PriceSum(s);
    }
    RoundMonotonic(lo, avg);
    RoundMonotonic(avg, hi);
  }

  /** `Found ${count} relevant courses with ${Math.round(topPercentage)}% match`. */
  function Summary(count: nat, topPercentage: int): string
  {
    "Found " + NatToString(count) + SummaryTail(topPercentage)
  }

  function SummaryTail(topPercentage: int): (t: string)
    ensures |t| > 0 && t[0] == ' '
  {
    " relevant courses with " + IntToString(topPercentage) + "% match"
  }

  /** The course count can be read back from the summary text. */
  lemma SummaryCount(t: string, count: nat, topPercentage: int)
    requires t == Summary(count, topPercentage)
    ensures var n := |NatToString(count)|;
      6 + n < |t| && StartsWith(t, "Found ") && t[6..6 + n] == NatToString(count) && t[6 + n] == ' '
      && DigitsValue(t[6..6 + n]) == count
  {
    FieldAfterPrefix("Found ", NatToString(count), SummaryTail(topPercentage));
    NatToStringRoundTrip(count);
  }

  /** The top match's percentage can be read back from the end of the summary text. */
  lemma SummaryPercentage(t: string, count: nat, topPercentage: int)
    requires t == Summary(count, topPercentage) && topPercentage >= 0
    ensures var d := NatToString(topPercentage);
      && |d| + 7 <= |t| && EndsWith(t, "% match") && t[|t| - 7 - |d|..|t| - 7] == d
      && DigitsValue(t[|t| - 7 - |d|..|t| - 7]) == topPercentage
  {
    var d := NatToString(topPercentage);
    var pre := "Found " + NatToString(count) + " relevant courses with ";
    assert t == pre + d + "% match";
    FieldBeforeSuffix(pre, d, "% match");
    NatToStringRoundTrip(topPercentage);
  }

  lemma FieldBeforeSuffix(pre: string, field: string, suf: string)
    ensures var t := pre + field + suf;
      t[|t| - |suf|..] == suf && t[|t| - |suf| - |field|..|t| - |suf|] == field
  {
  }

  lemma FieldAfterPrefix(pre: string, field: string, rest: string)
    requires |rest| > 0
    ensures var t := pre + field + rest;
      t[..|pre|] == pre && t[|pre|..|pre| + |field|] == field && t[|pre| + |field|] == rest[0]
  {
  }

  /** The recommendation entry for one of the top three courses. */
  function Recommend(s: Scored): Recommendation
  {
    Recommendation(TitleOrUnknown(s.course), s.relevancePercentage, Reason(s))
  }

  /** `courses.map(course => course.category)`. */
  function CategoriesOf(courses: seq<Scored>): (r: seq<Option<string>>)
    ensures |r| == |courses|
    ensures forall i :: 0 <= i < |r| ==> r[i] == courses[i].course.category
  {
    seq(|courses|, i requires 0 <= i < |courses| => courses[i].course.category)
  }

  /** `courses.map(course => course.courseLevel)`. */
  function LevelsOf(courses: seq<Scored>): (r: seq<Option<string>>)
    ensures |r| == |courses|
    ensures forall i :: 0 <= i < |r| ==> r[i] == courses[i].course.level
  {
    seq(|courses|, i requires 0 <= i < |courses| => courses[i].course.level)
  }

  /** `categories.slice(0, 5)` of the distinct present categories. */
  function PopularCategories(courses: seq<Scored>): (r: seq<string>)
    ensures NoDup(r) && |r| <= 5
    ensures forall k :: k in r ==> k != "" && Some(k) in CategoriesOf(courses)
  {
    var d := DistinctPresent(CategoriesOf(courses));
    TakeNoDup(d, 5);
    Take(d, 5)
  }

  function TopRecommendations(courses: seq<Scored>): (r: seq<Recommendation>)
    ensures |r| == (if |courses| < 3 then |courses| else 3)
    ensures forall i :: 0 <= i < |r| ==> r[i] == Recommend(courses[i])
  {
    seq(if |courses| < 3 then |courses| else 3, i requires 0 <= i < |courses| => Recommend(courses[i]))
  }

  /**
   * `generateSearchInsights(courses, query)`: the canned answer for an
   * empty list; otherwise a summary of the ranked list whose top match and
   * recommendations come from its head, with distinct levels and at most
   * five distinct categories.
   */
  function GenerateInsights(courses: seq<Scored>): (r: Insights)
    ensures courses == [] <==> r.NoResults?
    ensures r.NoResults? ==> r.summary == NoResultsSummary && r.tips == NoResultsTips
    ensures r.Overview? ==>
      && r.topMatchTitle == TitleOrUnknown(courses[0].course)
      && |r.recommendations| == (if |courses| < 3 then |courses| else 3)
      && (forall i :: 0 <= i < |r.recommendations| ==> r.recommendations[i] == Recommend(courses[i]))
      && NoDup(r.availableLevels)
      && (forall l :: l in r.availableLevels <==> l != "" && Some(l) in LevelsOf(courses))
      && r.availableLevels == DistinctPresent(LevelsOf(courses))
      && NoDup(r.popularCategories) && |r.popularCategories| <= 5
      && (forall k :: k in r.popularCategories ==> k != "" && Some(k) in CategoriesOf(courses))
      && r.popularCategories == Take(DistinctPresent(CategoriesOf(courses)), 5)
      && r.averagePrice == AveragePrice(courses)
      && r.summary == Summary(|courses|, courses[0].relevancePercentage)
  {
    if |courses| == 0 then NoResults(NoResultsSummary, NoResultsTips)
    else
      Overview(
        Summary(|courses|, courses[0].relevancePercentage),
        AveragePrice(courses),
        DistinctPresent(LevelsOf(courses)),
        PopularCategories(courses),
        TitleOrUnknown(courses[0].course),
        TopRecommendations(courses))
  }

  /** Levels are listed in the order in which they first appear among the ranked courses. */
  lemma LevelsInFirstOccurrenceOrder(courses: seq<Scored>, i: int, j: int)
    requires |courses| > 0
    requires 0 <= i < j < |GenerateInsights(courses).availableLevels|
    ensures var levels := GenerateInsights(courses).availableLevels;
      IndexOf(Present(LevelsOf(courses)), levels[i]) < IndexOf(Present(LevelsOf(courses)), levels[j])
  {
    DedupOrder(Present(LevelsOf(courses)), i, j);
  }

  /**
   * Categories are the first five distinct ones, in the order in which they
   * first appear among the ranked courses; a sixth distinct category is
   * never listed.
   */
  lemma CategoriesInFirstOccurrenceOrder(courses: seq<Scored>, i: int, j: int)
    requires |courses| > 0
    requires 0 <= i < j < |GenerateInsights(courses).popularCategories|
    ensures var cats := GenerateInsights(courses).popularCategories;
      IndexOf(Present(CategoriesOf(courses)), cats[i]) < IndexOf(Present(CategoriesOf(courses)), cats[j])
    ensures |GenerateInsights(courses).popularCategories|
         == if |DistinctPresent(CategoriesOf(courses))| < 5 then |DistinctPresent(CategoriesOf(courses))| else 5
  {
    DedupOrder(Present(CategoriesOf(courses)), i, j);
  }

  /** The summary counts the courses and quotes the top match's percentage. */
  lemma InsightsSummary(courses: seq<Scored>)
    requires |courses| > 0
    ensures var t, n := GenerateInsights(courses).summary, |NatToString(|courses|)|;
      && 6 + n < |t| && StartsWith(t, "Found ") && t[6..6 + n] == NatToString(|courses|)
      && DigitsValue(t[6..6 + n]) == |courses|
    ensures var t, p := GenerateInsights(courses).summary, courses[0].relevancePercentage;
      p >= 0 ==>
        var d := NatToString(p);
        && |d| + 7 <= |t| && EndsWith(t, "% match") && t[|t| - 7 - |d|..|t| - 7] == d
        && DigitsValue(t[|t| - 7 - |d|..|t| - 7]) == p
  {
    SummaryReadBack(GenerateInsights(courses).summary, |courses|, courses[0].relevancePercentage);
  }

  /** Both numbers of a summary text can be read back from it. */
  lemma SummaryReadBack(t: string, count: nat, topPercentage: int)
    requires t == Summary(count, topPercentage)
    ensures var n := |NatToString(count)|;
      && 6 + n < |t| && StartsWith(t, "Found ") && t[6..6 + n] == NatToString(count)
      && DigitsValue(t[6..6 + n]) == count
    ensures topPercentage >= 0 ==>
        var d := NatToString(topPercentage);
        && |d| + 7 <= |t| && EndsWith(t, "% match") && t[|t| - 7 - |d|..|t| - 7] == d
        && DigitsValue(t[|t| - 7 - |d|..|t| - 7]) == topPercentage
  {
    SummaryCount(t, count, topPercentage);
    if topPercentage >= 0 {
      SummaryPercentage(t, count, topPercentage);
    }
  }

  // ---------------------------------------------------------------------
  // Suggestions (`generateSearchSuggestions`)

  /** The five fixed refinements of a query. */
  function Refinements(q: string): (r: seq<string>)
    ensures |r| == 5 && NoDup(r)
  {
    var r := [q + " tutorial", q + " beginner", q + " advanced", q + " course", "learn " + q];
    assert |r[0]| == |r[1]| == |r[2]| == |q| + 9 && |r[3]| == |q| + 7 && |r[4]| == |q| + 6;
    assert r[0][|q| + 1] == 't' && r[1][|q| + 1] == 'b' && r[2][|q| + 1] == 'a';
    r
  }

  /** `categories.map(cat => `${query} in ${cat}`)`. */
  function CategoryVariants(q: string, results: seq<Scored>): (r: seq<string>)
    ensures |r| == |DistinctPresent(CategoriesOf(results))|
    ensures forall i :: 0 <= i < |r| ==> r[i] == q + " in " + DistinctPresent(CategoriesOf(results))[i]
  {
    var d := DistinctPresent(CategoriesOf(results));
    seq(|d|, i requires 0 <= i < |d| => q + " in " + d[i])
  }

  /** `levels.map(level => `${level} ${query}`)`. */
  function LevelVariants(q: string, results: seq<Scored>): (r: seq<string>)
    ensures |r| == |DistinctPresent(LevelsOf(results))|
    ensures forall i :: 0 <= i < |r| ==> r[i] == DistinctPresent(LevelsOf(results))[i] + " " + q
  {
    var d := DistinctPresent(LevelsOf(results));
    seq(|d|, i requires 0 <= i < |d| => d[i] + " " + q)
  }

  /** Every candidate suggestion, before deduplication. */
  function Candidates(q: string, results: seq<Scored>): seq<string>
  {
    (if |results| > 0 then CategoryVariants(q, results) + LevelVariants(q, results) else []) + Refinements(q)
  }

  /**
   * `generateSearchSuggestions(query, results)`: category and level
   * variants of the query (only when there are results), then the five
   * refinements; duplicates removed, at most five kept.
   */
  function Suggestions(query: Option<string>, results: seq<Scored>): (r: seq<string>)
    ensures NoDup(r) && |r| <= 5
    ensures !Truthy(query) <==> r == []
    ensures Truthy(query) ==> |r| == 5
    ensures Truthy(query) ==> forall i :: 0 <= i < |r| ==> r[i] in Candidates(query.value, results)
    ensures Truthy(query) ==> r == Take(Dedup(Candidates(query.value, results)), 5)
  {
    if !Truthy(query) then []
    else
      var q := query.value;
      var pre := if |results| > 0 then CategoryVariants(q, results) + LevelVariants(q, results) else [];
      var d := Dedup(Candidates(q, results));
      SuggestionsLength(pre, Refinements(q), d);
      TakeNoDup(d, 5);
      Take(d, 5)
  }

  /** The candidates are the category and level variants, then the refinements. */
  lemma CandidatesRefinementsLast(q: string, results: seq<Scored>)
    ensures Candidates(q, results) == (CategoryVariants(q, results) + LevelVariants(q, results)) + Refinements(q)
  {
    if |results| == 0 {
      assert CategoryVariants(q, results) + LevelVariants(q, results) == [];
    }
  }

  /** The candidates are the category variants, then the level variants and refinements. */
  lemma CandidatesCategoriesFirst(q: string, results: seq<Scored>)
    ensures Candidates(q, results) == CategoryVariants(q, results) + (LevelVariants(q, results) + Refinements(q))
  {
    var cv, lv, rf := CategoryVariants(q, results), LevelVariants(q, results), Refinements(q);
    CandidatesRefinementsLast(q, results);
    assert (cv + lv) + rf == cv + (lv + rf);
  }

  /**
   * Suggestions come in blocks: a category variant is preceded only by
   * category variants, and a category or level variant only by category or
   * level variants, so refinements come last.
   */
  lemma SuggestionsOrder(q: string, results: seq<Scored>, i: int, j: int)
    requires q != ""
    requires 0 <= i < j < |Suggestions(Some(q), results)|
    ensures var r, cv, lv := Suggestions(Some(q), results), CategoryVariants(q, results), LevelVariants(q, results);
      && (r[j] in cv ==> r[i] in cv)
      && (r[j] in cv + lv ==> r[i] in cv + lv)
  {
    var cv, lv, rf := CategoryVariants(q, results), LevelVariants(q, results), Refinements(q);
    var r, d := Suggestions(Some(q), results), Dedup(Candidates(q, results));
    assert r[i] == d[i] && r[j] == d[j];
    assert r[j] in cv ==> r[i] in cv by {
      if r[j] in cv {
        CandidatesCategoriesFirst(q, results);
        DedupBlocks(cv, lv + rf, i, j);
      }
    }
    assert r[j] in cv + lv ==> r[i] in cv + lv by {
      if r[j] in cv + lv {
        CandidatesRefinementsLast(q, results);
        DedupBlocks(cv + lv, rf, i, j);
      }
    }
  }

  /** Without results the suggestions are exactly the five refinements. */
  lemma SuggestionsWithoutResults(q: string)
    requires q != ""
    ensures Suggestions(Some(q), []) == Refinements(q)
  {
    assert Candidates(q, []) == Refinements(q);
    DedupNoDup(Refinements(q));
  }

  lemma SuggestionsLength(pre: seq<string>, t: seq<string>, d: seq<string>)
    requires NoDup(t) && NoDup(d) && |t| == 5
    requires forall i :: 0 <= i < |pre + t| ==> (pre + t)[i] in d
    ensures |d| >= 5
  {
    forall i | 0 <= i < |t| ensures t[i] in d {
      assert t[i] == (pre + t)[|pre| + i];
    }
    NoDupLength(t, d);
  }

  /** With results, the first suggestion names the first category present. */
  lemma FirstSuggestionCategory(q: string, results: seq<Scored>, i: nat)
    requires q != "" && i < |results|
    requires forall j :: 0 <= j < i ==> !Truthy(results[j].course.category)
    requires Truthy(results[i].course.category)
    ensures Suggestions(Some(q), results)[0] == q + " in " + results[i].course.category.value
  {
    var categories := CategoriesOf(results);
    PresentFirst(categories, i);
    DedupHead(Present(categories));
    var all := Candidates(q, results);
    assert all[0] == q + " in " + results[i].course.category.value;
    DedupHead(all);
  }
}

=== FILE: levenshtein.dfy ===
/**
 * Levenshtein edit distance (`levenshteinDistance`): unit-cost insertion,
 * deletion and substitution. `EditDistance` is the recurrence the source's
 * table follows, read on prefixes; `Distance` fills the table as the source
 * does and is proved to agree with it.
 */
module Levenshtein {

  function Min3(a: nat, b: nat, c: nat): (m: nat)
    ensures m <= a && m <= b && m <= c
    ensures m == a || m == b || m == c
  {
    if a <= b && a <= c then a else if b <= c then b else c
  }

  function Max(a: nat, b: nat): nat
  {
    if a >= b then a else b
  }

  function AbsDiff(a: nat, b: nat): nat
  {
    if a >= b then a - b else b - a
  }

  /**
   * Edit distance between `a` and `b`: when the last characters agree the
   * diagonal entry is taken as is, otherwise one plus the least of the
   * diagonal, left and upper entries. It lies between the difference of
   * the lengths and the larger length.
   */
  function EditDistance(a: string, b: string): (d: nat)
    ensures AbsDiff(|a|, |b|) <= d <= Max(|a|, |b|)
    decreases |a| + |b|
  {
    if |a| == 0 then |b|
    else if |b| == 0 then |a|
    else if a[|a| - 1] == b[|b| - 1] then EditDistance(a[..|a| - 1], b[..|b| - 1])
    else Min3(EditDistance(a[..|a| - 1], b[..|b| - 1]) + 1,
              EditDistance(a[..|a| - 1], b) + 1,
              EditDistance(a, b[..|b| - 1]) + 1)
  }

  /** The distance to or from the empty string is the other string's length. */
  lemma EditDistanceEmpty(s: string)
    ensures EditDistance("", s) == |s|
    ensures EditDistance(s, "") == |s|
  {
  }

  /** A string is at distance zero from itself. */
  lemma {:induction false} EditDistanceSelf(s: string)
    ensures EditDistance(s, s) == 0
    decreases |s|
  {
    if |s| > 0 {
      EditDistanceSelf(s[..|s| - 1]);
    }
  }

  /** Distance zero means equal strings, and distinct strings are at least one edit apart. */
  lemma {:induction false} EditDistanceZero(a: string, b: string)
    ensures EditDistance(a, b) == 0 <==> a == b
    decreases |a| + |b|
  {
    if a == b {
      EditDistanceSelf(a);
    } else if |a| > 0 && |b| > 0 && a[|a| - 1] == b[|b| - 1] {
      assert a == a[..|a| - 1] + [a[|a| - 1]];
      assert b == b[..|b| - 1] + [b[|b| - 1]];
      EditDistanceZero(a[..|a| - 1], b[..|b| - 1]);
    }
  }

  /** The distance does not depend on the argument order. */
  lemma {:induction false} EditDistanceSymmetric(a: string, b: string)
    ensures EditDistance(a, b) == EditDistance(b, a)
    decreases |a| + |b|
  {
    if |a| > 0 && |b| > 0 {
      EditDistanceSymmetric(a[..|a| - 1], b[..|b| - 1]);
      if a[|a| - 1] != b[|b| - 1] {
        EditDistanceSymmetric(a[..|a| - 1], b);
        EditDistanceSymmetric(a, b[..|b| - 1]);
      }
    }
  }

  /** Entry of the source's table: row `r` reads `str2`, column `c` reads `str1`. */
  function Cell(str1: string, str2: string, r: nat, c: nat): nat
    requires r <= |str2| && c <= |str1|
  {
    EditDistance(str1[..c], str2[..r])
  }

  /** The first row and the first column of the table count up from zero. */
  lemma CellBorder(str1: string, str2: string, r: nat, c: nat)
    requires r <= |str2| && c <= |str1|
    ensures Cell(str1, str2, r, 0) == r
    ensures Cell(str1, str2, 0, c) == c
  {
  }

  /** An inner entry of the table follows from its three neighbours. */
  lemma CellStep(str1: string, str2: string, i: nat, j: nat)
    requires 1 <= i <= |str2| && 1 <= j <= |str1|
    ensures Cell(str1, str2, i, j) ==
      if str2[i - 1] == str1[j - 1] then Cell(str1, str2, i - 1, j - 1)
      else Min3(Cell(str1, str2, i - 1, j - 1) + 1, Cell(str1, str2, i, j - 1) + 1, Cell(str1, str2, i - 1, j) + 1)
  {
    var a, b := str1[..j], str2[..i];
    assert a[..j - 1] == str1[..j - 1] && b[..i - 1] == str2[..i - 1];
  }

  /**
   * `levenshteinDistance(str1, str2)`: fills the table whose row `i` and
   * column `j` hold the distance between the first `j` characters of `str1`
   * and the first `i` characters of `str2`, and returns the last entry.
   */
  method Distance(str1: string, str2: string) returns (d: nat)
    ensures d == EditDistance(str1, str2)
  {
    var m := new nat[|str2| + 1, |str1| + 1];
    var i := 0;
    while i <= |str2|
      invariant 0 <= i <= |str2| + 1
      invariant forall r :: 0 <= r < i ==> m[r, 0] == r
    {
      m[i, 0] := i;
      i := i + 1;
    }
    var j := 0;
    while j <= |str1|
      invariant 0 <= j <= |str1| + 1
      invariant forall r :: 0 <= r <= |str2| ==> m[r, 0] == r
      invariant forall c :: 0 <= c < j ==> m[0, c] == c
    {
      m[0, j] := j;
      j := j + 1;
    }
    forall c | 0 <= c <= |str1| ensures m[0, c] == Cell(str1, str2, 0, c) {
      CellBorder(str1, str2, 0, c);
    }
    i := 1;
    while i <= |str2|
      invariant 1 <= i <= |str2| + 1
      invariant forall r, c :: 0 <= r < i && 0 <= c <= |str1| ==> m[r, c] == Cell(str1, str2, r, c)
      invariant forall r :: i <= r <= |str2| ==> m[r, 0] == r
    {
      CellBorder(str1, str2, i, 0);
      j := 1;
      while j <= |str1|
        invariant 1 <= j <= |str1| + 1
        invariant forall r, c :: 0 <= r < i && 0 <= c <= |str1| ==> m[r, c] == Cell(str1, str2, r, c)
        invariant forall c :: 0 <= c < j ==> m[i, c] == Cell(str1, str2, i, c)
        invariant forall r :: i < r <= |str2| ==> m[r, 0] == r
      {
        CellStep(str1, str2, i, j);
        if str2[i - 1] == str1[j - 1] {
          m[i, j] := m[i - 1, j - 1];
        } else {
          m[i, j] := Min3(m[i - 1, j - 1] + 1, m[i, j - 1] + 1, m[i - 1, j] + 1);
        }
        j := j + 1;
      }
      i := i + 1;
    }
    d := m[|str2|, |str1|];
    assert str1[..|str1|] == str1 && str2[..|str2|] == str2;
  }
}

=== FILE: query.dfy ===
/**
 * Query normaliser (`preprocessQuery`): lower-cases the query, turns every
 * character that is neither `\w` nor `\s` into a space, splits on
 * whitespace runs and keeps the pieces longer than one character.
 */
module Query {
  import opened Wrappers
  import opened Text

  /** A search term: at least two characters, all lower-case word characters. */
  predicate IsTerm(t: string)
  {
    |t| >= 2 && forall i :: 0 <= i < |t| ==> IsLowerWordChar(t[i])
  }

  /** `.replace(/[^\w\s]/g, ' ')` on one character. */
  function CleanChar(c: char): char
  {
    if IsWordChar(c) || IsSpace(c) then c else ' '
  }

  /** `.replace(/[^\w\s]/g, ' ')`. */
  function Clean(s: string): (r: string)
    ensures |r| == |s|
    ensures forall i :: 0 <= i < |s| ==> r[i] == CleanChar(s[i])
  {
    seq(|s|, i requires 0 <= i < |s| => CleanChar(s[i]))
  }

  /** What the three filtering passes make of one piece: nothing, or the trimmed piece. */
  function KeepOne(t: string): seq<string>
  {
    if |t| > 1 && |Trim(t)| > 0 then [Trim(t)] else []
  }

  /**
   * `.filter(term => term && term.length > 1).map(term => term.trim())
   *  .filter(term => term.length > 0)`, fused into one pass.
   */
  function KeepTerms(tokens: seq<string>): (r: seq<string>)
    ensures |r| <= |tokens|
    decreases |tokens|
  {
    if |tokens| == 0 then [] else KeepOne(tokens[0]) + KeepTerms(tokens[1..])
  }

  lemma {:induction false} KeepTermsConcat(a: seq<string>, b: seq<string>)
    ensures KeepTerms(a + b) == KeepTerms(a) + KeepTerms(b)
    decreases |a|
  {
    if |a| > 0 {
      assert (a + b)[0] == a[0];
      assert (a + b)[1..] == a[1..] + b;
      KeepTermsConcat(a[1..], b);
    } else {
      assert a + b == b;
    }
  }

  /** The terms of an already lower-cased and cleaned string. */
  function TermsOf(cleaned: string): seq<string>
  {
    KeepTerms(SplitWs(cleaned))
  }

  /**
   * `preprocessQuery(query)`: a missing or empty query gives no terms.
   * Every term has at least two characters, all of them lower-case word
   * characters, so no term holds whitespace.
   */
  function Preprocess(query: Option<string>): (terms: seq<string>)
    ensures !Truthy(query) ==> terms == []
    ensures forall k :: 0 <= k < |terms| ==> IsTerm(terms[k])
  {
    if !Truthy(query) then []
    else
      var cleaned := Clean(Lower(query.value));
      CleanTerms(cleaned);
      TermsOf(cleaned)
  }

  /** A piece of a cleaned string: no whitespace, only lower-case word characters. */
  predicate WordToken(t: string)
  {
    NoSpace(t) && forall i :: 0 <= i < |t| ==> IsLowerWordChar(t[i])
  }

  /** Every term drawn from a cleaned lower-case string is a well-formed term. */
  lemma CleanTerms(cleaned: string)
    requires forall i :: 0 <= i < |cleaned| ==> IsLowerWordChar(cleaned[i]) || IsSpace(cleaned[i])
    ensures forall k :: 0 <= k < |TermsOf(cleaned)| ==> IsTerm(TermsOf(cleaned)[k])
  {
    var tokens := SplitWs(cleaned);
    SplitWsPieces(cleaned);
    forall k | 0 <= k < |tokens| ensures WordToken(tokens[k]) {
      var t := tokens[k];
      assert NoSpace(t) && CharsIn(t, cleaned);
      forall i | 0 <= i < |t| ensures IsLowerWordChar(t[i]) {
        assert t[i] in cleaned;
      }
    }
    KeepTermsWellFormed(tokens);
  }

  lemma {:induction false} KeepTermsWellFormed(tokens: seq<string>)
    requires forall k :: 0 <= k < |tokens| ==> WordToken(tokens[k])
    ensures forall k :: 0 <= k < |KeepTerms(tokens)| ==> IsTerm(KeepTerms(tokens)[k])
    decreases |tokens|
  {
    if |tokens| > 0 {
      TrimNoSpace(tokens[0]);
      KeepTermsWellFormed(tokens[1..]);
    }
  }

  /** A leading whitespace run contributes no term. */
  lemma TermsAfterRun(s: string, k: nat)
    requires 0 < k <= |s|
    requires forall n :: 0 <= n < k ==> IsSpace(s[n])
    requires k == |s| || !IsSpace(s[k])
    ensures TermsOf(s) == TermsOf(s[k..])
  {
    SplitAfterRun(s, k);
    KeepTermsConcat([""], SplitWs(s[k..]));
  }

  /** Dropping one leading whitespace character does not change the terms. */
  lemma TermsDropSpace(s: string)
    requires |s| > 0 && IsSpace(s[0])
    ensures TermsOf(s) == TermsOf(s[1..])
  {
    var k := SkipSpace(s, 0);
    TermsAfterRun(s, k);
    if k > 1 {
      TermsAfterRun(s[1..], k - 1);
      assert s[1..][k - 1..] == s[k..];
    }
  }

  /**
   * Splitting at a whitespace character splits the terms: the terms of `s`
   * are the terms before position `p` followed by the terms after it.
   */
  lemma {:induction false} TermsSplitAt(s: string, p: nat)
    requires p < |s| && IsSpace(s[p])
    ensures TermsOf(s) == TermsOf(s[..p]) + TermsOf(s[p + 1..])
    decreases p, 2
  {
    var i := NextSpace(s, 0);
    if i == p {
      SplitAtFirstSpace(s, p);
    } else if i == 0 {
      SplitAtLeadingSpace(s, p);
    } else {
      SplitAtWordThenSpace(s, i, p);
    }
  }

  /** `TermsSplitAt` when `p` is the first whitespace position. */
  lemma SplitAtFirstSpace(s: string, p: nat)
    requires p < |s| && IsSpace(s[p])
    requires forall n :: 0 <= n < p ==> !IsSpace(s[n])
    ensures TermsOf(s) == TermsOf(s[..p]) + TermsOf(s[p + 1..])
  {
    TermsWordPrefix(s, p);
    TermsDropSpaceAt(s, p);
    TermsOfWord(s, p);
  }

  /** The whitespace character at position `p` contributes no term. */
  lemma TermsDropSpaceAt(s: string, p: nat)
    requires p < |s| && IsSpace(s[p])
    ensures TermsOf(s[p..]) == TermsOf(s[p + 1..])
  {
    TermsDropSpace(s[p..]);
    assert s[p..][1..] == s[p + 1..];
  }

  /** A prefix without whitespace is a single piece. */
  lemma TermsOfWord(s: string, p: nat)
    requires p <= |s|
    requires forall n :: 0 <= n < p ==> !IsSpace(s[n])
    ensures TermsOf(s[..p]) == KeepTerms([s[..p]])
  {
    SplitNoSpace(s[..p]);
  }

  /** `TermsSplitAt` when `s` starts with whitespace, given the claim for `s[1..]`. */
  lemma SplitAtLeadingSpace(s: string, p: nat)
    requires 0 < p < |s| && IsSpace(s[p]) && IsSpace(s[0])
    ensures TermsOf(s) == TermsOf(s[..p]) + TermsOf(s[p + 1..])
    decreases p, 0
  {
    LeadingSpaceSlices(s, p);
    TermsSplitAt(s[1..], p - 1);
    TermsDropSpace(s);
    TermsDropSpace(s[..p]);
  }

  /** The slices `SplitAtLeadingSpace` works with, once the leading space is dropped. */
  lemma LeadingSpaceSlices(s: string, p: nat)
    requires 0 < p < |s| && IsSpace(s[p]) && IsSpace(s[0])
    ensures s[1..][..p - 1] == s[..p][1..] && s[1..][p - 1 + 1..] == s[p + 1..]
    ensures IsSpace(s[1..][p - 1]) && IsSpace(s[..p][0])
  {
    NestedSlices(s, 1, p);
    assert s[1..][p - 1] == s[p] && s[..p][0] == s[0];
  }

  /** `TermsSplitAt` when `s` starts with a word ending at the whitespace position `i < p`. */
  lemma SplitAtWordThenSpace(s: string, i: nat, p: nat)
    requires 0 < i < p < |s| && IsSpace(s[i]) && IsSpace(s[p])
    requires forall n :: 0 <= n < i ==> !IsSpace(s[n])
    ensures TermsOf(s) == TermsOf(s[..p]) + TermsOf(s[p + 1..])
    decreases p, 1
  {
    SplitAfterFirstWord(s, i, p);
    TermsWordPrefix(s, i);
    TermsWordPrefixBefore(s, i, p);
    ConcatAssoc(KeepTerms([s[..i]]), TermsOf(s[..p][i..]), TermsOf(s[p + 1..]));
  }

  /** `TermsWordPrefix` for the prefix `s[..p]`, which still holds the first word. */
  lemma TermsWordPrefixBefore(s: string, i: nat, p: nat)
    requires 0 < i < p <= |s| && IsSpace(s[i])
    requires forall n :: 0 <= n < i ==> !IsSpace(s[n])
    ensures TermsOf(s[..p]) == KeepTerms([s[..i]]) + TermsOf(s[..p][i..])
  {
    var u := s[..p];
    assert u[..i] == s[..i] && u[i] == s[i];
    assert forall n :: 0 <= n < i ==> u[n] == s[n];
    TermsWordPrefix(u, i);
  }

  /** The part of `TermsSplitAt` after the first word, by the induction hypothesis. */
  lemma SplitAfterFirstWord(s: string, i: nat, p: nat)
    requires 0 < i < p < |s| && IsSpace(s[p])
    ensures TermsOf(s[i..]) == TermsOf(s[..p][i..]) + TermsOf(s[p + 1..])
    decreases p, 0
  {
    var t, q := s[i..], p - i;
    assert t[..q] == s[..p][i..] && t[q + 1..] == s[p + 1..] && t[q] == s[p] by {
      NestedSlices(s, i, p);
    }
    TermsSplitAt(t, q);
  }

  /** A first word followed by whitespace contributes its own term, if any, ahead of the rest. */
  lemma TermsWordPrefix(s: string, i: nat)
    requires i < |s| && IsSpace(s[i])
    requires forall n :: 0 <= n < i ==> !IsSpace(s[n])
    ensures TermsOf(s) == KeepTerms([s[..i]]) + TermsOf(s[i..])
  {
    var k := SkipSpace(s, i);
    SplitAfterWord(s, i, k);
    KeepTermsConcat([s[..i]], SplitWs(s[k..]));
    RunAfterWord(s, i, k);
  }

  /** The whitespace run that follows the first word contributes no term. */
  lemma RunAfterWord(s: string, i: nat, k: nat)
    requires i < k <= |s|
    requires forall n :: i <= n < k ==> IsSpace(s[n])
    requires k == |s| || !IsSpace(s[k])
    ensures TermsOf(s[i..]) == TermsOf(s[k..])
  {
    var t := s[i..];
    assert t[k - i..] == s[k..];
    forall n | 0 <= n < k - i ensures IsSpace(t[n]) {
      assert t[n] == s[i + n];
    }
    assert k == |s| || t[k - i] == s[k];
    TermsAfterRun(t, k - i);
  }

  /**
   * Terms keep their order and are not deduplicated: the terms of two
   * queries joined by a space are the terms of the first followed by the
   * terms of the second.
   */
  lemma PreprocessConcat(a: string, b: string)
    ensures Preprocess(Some(a + " " + b)) == Preprocess(Some(a)) + Preprocess(Some(b))
  {
    CleanJoined(a, b);
    TermsSplitAt(Clean(Lower(a + " " + b)), |a|);
  }

  /**
   * Punctuation separates terms: a character that is neither a word
   * character nor whitespace acts exactly like a space, so "react.js"
   * gives the terms of "react" followed by those of "js".
   */
  lemma PreprocessPunctuation(a: string, c: char, b: string)
    requires !IsWordChar(c) && !IsSpace(c)
    ensures Preprocess(Some(a + [c] + b)) == Preprocess(Some(a)) + Preprocess(Some(b))
  {
    var s, t := a + [c] + b, a + " " + b;
    assert Clean(Lower(s)) == Clean(Lower(t)) by {
      assert |s| == |t|;
      forall i | 0 <= i < |s| ensures CleanChar(LowerChar(s[i])) == CleanChar(LowerChar(t[i])) {
        if i != |a| {
          assert s[i] == t[i];
        }
      }
    }
    PreprocessConcat(a, b);
  }

  /** Cleaning works character by character, so it commutes with joining by a space. */
  lemma CleanJoined(a: string, b: string)
    ensures var s := Clean(Lower(a + " " + b));
      |s| == |a| + 1 + |b| && IsSpace(s[|a|])
      && s[..|a|] == Clean(Lower(a)) && s[|a| + 1..] == Clean(Lower(b))
  {
    var s := Clean(Lower(a + " " + b));
    assert s[|a|] == CleanChar(LowerChar(' '));
    assert s[..|a|] == Clean(Lower(a));
    assert s[|a| + 1..] == Clean(Lower(b));
  }

  /** A single word of at least two word characters is one term, lower-cased. */
  lemma PreprocessWord(w: string)
    requires |w| >= 2
    requires forall i :: 0 <= i < |w| ==> IsWordChar(w[i])
    ensures Preprocess(Some(w)) == [Lower(w)]
  {
    var cleaned := Clean(Lower(w));
    assert cleaned == Lower(w);
    assert SplitWs(cleaned) == [cleaned] by {
      SplitNoSpace(cleaned);
    }
    assert KeepOne(cleaned) == [cleaned] by {
      TrimNoSpace(cleaned);
    }
    assert KeepTerms([cleaned]) == KeepOne(cleaned) + KeepTerms([]);
  }

  /** Repeated words are kept: a word typed twice gives its term twice. */
  lemma PreprocessKeepsRepeats(w: string)
    requires |w| >= 2
    requires forall i :: 0 <= i < |w| ==> IsWordChar(w[i])
    ensures Preprocess(Some(w + " " + w)) == [Lower(w), Lower(w)]
  {
    var one := Preprocess(Some(w));
    assert one == [Lower(w)] by {
      PreprocessWord(w);
    }
    assert Preprocess(Some(w + " " + w)) == one + one by {
      PreprocessConcat(w, w);
    }
  }
}

=== FILE: ranking.dfy ===
/**
 * `sortResults`: a stable sort of the scored courses under one of five
 * orderings. Every ordering compares one numeric field with a `|| 0`
 * default; the descending orderings are modelled as an ascending sort on
 * the negated field, which a stable sort treats identically.
 */
module Ranking {
  import opened Wrappers
  import opened Courses

  datatype SortMode = PriceLow | PriceHigh | Popularity | Newest | Relevance

  /** The `sortBy` switch: absent defaults to relevance, as does any unknown value. */
  function ParseSortBy(sortBy: Option<string>): (m: SortMode)
    ensures sortBy.None? ==> m == Relevance
    ensures m == PriceLow <==> sortBy == Some("price_low")
    ensures m == PriceHigh <==> sortBy == Some("price_high")
    ensures m == Popularity <==> sortBy == Some("popularity")
    ensures m == Newest <==> sortBy == Some("newest")
  {
    match sortBy
    case None => Relevance
    case Some(s) =>
      if s == "price_low" then PriceLow
      else if s == "price_high" then PriceHigh
      else if s == "popularity" then Popularity
      else if s == "newest" then Newest
      else Relevance
  }

  /** `coursePrice || 0`. */
  function Price(s: Scored): real
  {
    s.course.price.GetOr(0.0)
  }

  /** `createdAt ? new Date(createdAt) : new Date(0)`, in epoch milliseconds. */
  function Created(s: Scored): int
  {
    s.course.createdAt.GetOr(0)
  }

  /** The ascending sort key of a mode. */
  function Key(mode: SortMode, s: Scored): real
  {
    match mode
    case PriceLow => Price(s)
    case PriceHigh => -Price(s)
    case Popularity => -(s.course.enrolledCount as real)
    case Newest => -(Created(s) as real)
    case Relevance => -s.aiScore
  }

  predicate Sorted(mode: SortMode, s: seq<Scored>)
  {
    forall i, j :: 0 <= i < j < |s| ==> Key(mode, s[i]) <= Key(mode, s[j])
  }

  /** The entries whose key is `k`, in their order. */
  function WithKey(mode: SortMode, s: seq<Scored>, k: real): (r: seq<Scored>)
    ensures |r| <= |s|
    decreases |s|
  {
    if |s| == 0 then []
    else (if Key(mode, s[0]) == k then [s[0]] else []) + WithKey(mode, s[1..], k)
  }

  lemma WithKeyCons(mode: SortMode, x: Scored, s: seq<Scored>, k: real)
    ensures WithKey(mode, [x] + s, k) == (if Key(mode, x) == k then [x] else []) + WithKey(mode, s, k)
  {
    assert ([x] + s)[1..] == s;
  }

  /** Every entry's key is at least `b`. */
  predicate AllAtLeast(mode: SortMode, s: seq<Scored>, b: real)
  {
    forall i :: 0 <= i < |s| ==> b <= Key(mode, s[i])
  }

  lemma {:induction false} InsertBound(mode: SortMode, x: Scored, s: seq<Scored>, b: real)
    requires Sorted(mode, s) && AllAtLeast(mode, s, b) && b <= Key(mode, x)
    ensures AllAtLeast(mode, Insert(mode, x, s), b)
    decreases |s|, 1
  {
    if |s| > 0 && Key(mode, x) > Key(mode, s[0]) {
      InsertBound(mode, x, s[1..], b);
    }
  }

  /** Places `x` before the first entry whose key is not smaller. */
  function Insert(mode: SortMode, x: Scored, s: seq<Scored>): (r: seq<Scored>)
    requires Sorted(mode, s)
    ensures Sorted(mode, r)
    ensures multiset(r) == multiset(s) + multiset{x}
    ensures |r| == |s| + 1
    decreases |s|, 0
  {
    if |s| == 0 || Key(mode, x) <= Key(mode, s[0]) then [x] + s
    else
      var rest := Insert(mode, x, s[1..]);
      assert s == [s[0]] + s[1..];
      InsertBound(mode, x, s[1..], Key(mode, s[0]));
      [s[0]] + rest
  }

  /**
   * `sortResults(courses, sortBy)`: a permutation of the input, ordered by
   * the mode's key.
   */
  function Sort(mode: SortMode, s: seq<Scored>): (r: seq<Scored>)
    ensures Sorted(mode, r)
    ensures multiset(r) == multiset(s)
    ensures |r| == |s|
    decreases |s|
  {
    if |s| == 0 then []
    else
      assert s == [s[0]] + s[1..];
      Insert(mode, s[0], Sort(mode, s[1..]))
  }

  lemma {:induction false} InsertStable(mode: SortMode, x: Scored, s: seq<Scored>, k: real)
    requires Sorted(mode, s)
    ensures WithKey(mode, Insert(mode, x, s), k) == (if Key(mode, x) == k then [x] else []) + WithKey(mode, s, k)
    decreases |s|
  {
    if |s| == 0 || Key(mode, x) <= Key(mode, s[0]) {
      WithKeyCons(mode, x, s, k);
    } else {
      InsertStable(mode, x, s[1..], k);
      InsertStableStep(mode, x, s[0], Insert(mode, x, s[1..]), s[1..], k);
      assert s == [s[0]] + s[1..];
    }
  }

  lemma InsertStableStep(mode: SortMode, x: Scored, y: Scored, rest: seq<Scored>, s: seq<Scored>, k: real)
    requires Key(mode, y) < Key(mode, x)
    requires WithKey(mode, rest, k) == (if Key(mode, x) == k then [x] else []) + WithKey(mode, s, k)
    ensures WithKey(mode, [y] + rest, k) == (if Key(mode, x) == k then [x] else []) + WithKey(mode, [y] + s, k)
  {
    var kx := if Key(mode, x) == k then [x] else [];
    var ky := if Key(mode, y) == k then [y] else [];
    var w := WithKey(mode, s, k);
    assert WithKey(mode, [y] + rest, k) == ky + (kx + w) by {
      WithKeyCons(mode, y, rest, k);
    }
    assert WithKey(mode, [y] + s, k) == ky + w by {
      WithKeyCons(mode, y, s, k);
    }
    assert kx == [] || ky == [];
    assert ky + (kx + w) == kx + (ky + w);
  }

  /**
   * The sort is stable: entries with equal keys keep their relative order,
   * as `Array.prototype.sort` guarantees.
   */
  /** `SortStable` for every key value at once. */
  lemma SortStableAll(mode: SortMode, s: seq<Scored>)
    ensures forall k :: WithKey(mode, Sort(mode, s), k) == WithKey(mode, s, k)
  {
    forall k {
      SortStable(mode, s, k);
    }
  }

  lemma {:induction false} SortStable(mode: SortMode, s: seq<Scored>, k: real)
    ensures WithKey(mode, Sort(mode, s), k) == WithKey(mode, s, k)
    decreases |s|
  {
    if |s| > 0 {
      SortStable(mode, s[1..], k);
      InsertStable(mode, s[0], Sort(mode, s[1..]), k);
      WithKeyCons(mode, s[0], s[1..], k);
      assert s == [s[0]] + s[1..];
    }
  }

  /**
   * What each ordering means on the result: cheapest first, dearest first,
   * most enrolled first, newest first, or highest `aiScore` first.
   */
  lemma SortOrders(sortBy: Option<string>, s: seq<Scored>, i: int, j: int)
    requires 0 <= i < j < |s|
    ensures var r := Sort(ParseSortBy(sortBy), s);
      match ParseSortBy(sortBy)
      case PriceLow => Price(r[i]) <= Price(r[j])
      case PriceHigh => Price(r[i]) >= Price(r[j])
      case Popularity => r[i].course.enrolledCount >= r[j].course.enrolledCount
      case Newest => Created(r[i]) >= Created(r[j])
      case Relevance => r[i].aiScore >= r[j].aiScore
  {
    var r := Sort(ParseSortBy(sortBy), s);
    assert Key(ParseSortBy(sortBy), r[i]) <= Key(ParseSortBy(sortBy), r[j]);
  }

  /** A missing price sorts like a free course, and a missing date like the epoch. */
  lemma MissingFieldsDefault(mode: SortMode, a: Scored)
    ensures a.course.price.None? ==> Key(mode, a) == Key(mode, a.(course := a.course.(price := Some(0.0))))
    ensures a.course.createdAt.None? ==> Key(mode, a) == Key(mode, a.(course := a.course.(createdAt := Some(0))))
  {
  }
}

=== FILE: scoring.dfy ===
/**
 * `applyAIScoring`: the seven weighted signals per course, the capped
 * `aiScore`, the uncapped `relevancePercentage` and the matched terms.
 */
module Scoring {
  import opened Wrappers
  import opened Text
  import opened Query
  import opened TextSimilarity
  import opened Signals
  import opened Courses

  /** `Math.round(x)`: the nearest integer, halves rounded up. */
  function Round(x: real): (n: int)
    ensures x - 0.5 < n as real <= x + 0.5
  {
    (x + 0.5).Floor
  }

  lemma RoundMonotonic(x: real, y: real)
    requires x <= y
    ensures Round(x) <= Round(y)
  {
  }

  /** The seven weighted contributions for one course. */
  function Weigh(c: Course, query: string, terms: seq<string>): (b: Breakdown)
    ensures b.WithinCaps()
  {
    Breakdown(
      Similarity(c.title, Some(query)) * 0.4,
      Similarity(Some(OrEmpty(c.subtitle)), Some(query)) * 0.25,
      DescriptionRelevance(Some(OrEmpty(c.description)), terms) * 0.2,
      Similarity(c.category, Some(query)) * 0.1,
      Popularity(Some(c.enrolledCount), Some(c.lectureCount)) * 0.05,
      LectureRelevance(c.lectures, terms),
      SemanticSimilarity(c, terms, TechKeywords))
  }

  /**
   * One entry of `courses.map(...)`: the course with its breakdown, the
   * total capped at 1 as `aiScore`, the uncapped total as a rounded
   * percentage (at most 130, since the caps sum to 1.3), and the matched
   * terms.
   */
  function ScoreCourse(c: Course, query: string, terms: seq<string>): (s: Scored)
    ensures s.course == c
    ensures s.breakdown == Weigh(c, query, terms)
    ensures 0.0 <= s.breakdown.Total() <= 1.3
    ensures 0.0 <= s.aiScore <= 1.0
    ensures s.aiScore == s.breakdown.Total() || (s.aiScore == 1.0 && s.breakdown.Total() > 1.0)
    ensures 0 <= s.relevancePercentage <= 130
    ensures s.relevancePercentage == Round(s.breakdown.Total() * 100.0)
    ensures s.breakdown.Total() <= 1.0 ==> s.relevancePercentage == Round(s.aiScore * 100.0)
    ensures s.matchedTerms == MatchedTerms(c, terms)
  {
    Finish(c, Weigh(c, query, terms), MatchedTerms(c, terms))
  }

  /** The fields `applyAIScoring` derives from a breakdown within its caps. */
  function Finish(c: Course, b: Breakdown, matched: seq<string>): (s: Scored)
    requires b.WithinCaps()
    ensures s.course == c && s.breakdown == b && s.matchedTerms == matched
    ensures 0.0 <= b.Total() <= 1.3
    ensures 0.0 <= s.aiScore <= 1.0
    ensures s.aiScore == b.Total() || (s.aiScore == 1.0 && b.Total() > 1.0)
    ensures 0 <= s.relevancePercentage <= 130
    ensures s.relevancePercentage == Round(b.Total() * 100.0)
    ensures b.Total() <= 1.0 ==> s.relevancePercentage == Round(s.aiScore * 100.0)
  {
    var total := b.Total();
    RoundMonotonic(0.0, total * 100.0);
    RoundMonotonic(total * 100.0, 130.0);
    Scored(c, RealMin(total, 1.0), b, Round(total * 100.0), matched)
  }

  /**
   * `applyAIScoring(courses, query)`: one scored entry per course, in the
   * input order, every one scored against the same preprocessed terms.
   */
  function ApplyAIScoring(courses: seq<Course>, query: string): (r: seq<Scored>)
    ensures |r| == |courses|
    ensures forall i :: 0 <= i < |r| ==> r[i].course == courses[i]
    ensures forall i :: 0 <= i < |r| ==> r[i] == ScoreCourse(courses[i], query, Preprocess(Some(query)))
  {
    var terms := Preprocess(Some(query));
    seq(|courses|, i requires 0 <= i < |courses| => ScoreCourse(courses[i], query, terms))
  }

  /**
   * A title that contains the query (ignoring case) earns the full title
   * weight, so such a course scores at least 0.4.
   */
  lemma TitleContainingQuery(c: Course, query: string, terms: seq<string>)
    requires Truthy(c.title) && query != ""
    requires Contains(Lower(c.title.value), Lower(query))
    ensures ScoreCourse(c, query, terms).breakdown.titleMatch == 0.4
    ensures ScoreCourse(c, query, terms).aiScore >= 0.4
  {
    assert SubstringMatch(c.title.value, query);
  }

  /** Scores ignore the case of the title. */
  lemma TitleCaseIgnored(c: Course, query: string, terms: seq<string>)
    requires c.title.Some?
    ensures Weigh(c, query, terms).titleMatch
         == Weigh(c.(title := Some(Lower(c.title.value))), query, terms).titleMatch
  {
    SimilarityIgnoresCase(c.title.value, Some(query));
  }

  /** Once the total passes 1.005 the percentage exceeds 100 although `aiScore` stays at 1. */
  lemma PercentageBeyondHundred(c: Course, query: string, terms: seq<string>)
    requires Weigh(c, query, terms).Total() >= 1.005
    ensures ScoreCourse(c, query, terms).relevancePercentage > 100
    ensures ScoreCourse(c, query, terms).aiScore == 1.0
  {
  }

  // ---------------------------------------------------------------------
  // A course whose every field is the query itself

  /** Title, subtitle, description, category and its one lecture all read `coding`. */
  const AllCoding: Course := Course(0, Some("coding"), Some("coding"), Some("coding"), Some("coding"),
                                    None, None, None, 100, 20, [Lecture(Some("coding"), false)])

  lemma CodingIsLowerWord()
    ensures Lower("coding") == "coding"
    ensures NoSpace("coding")
    ensures forall i :: 0 <= i < |"coding"| ==> IsWordChar("coding"[i])
  {
    assert forall i :: 0 <= i < |"coding"| ==> 'a' <= "coding"[i] <= 'z';
  }

  lemma CodingDescription()
    ensures DescriptionRelevance(Some("coding"), ["coding"]) == 1.0
  {
    CodingIsLowerWord();
    SplitNoSpace("coding");
    assert DescriptionWords("coding") == ["coding"] by {
      assert NonEmptyWords(["coding"]) == ["coding"] + NonEmptyWords([]);
    }
    ContainsSelf("coding");
    assert CountRelated(["coding"], "coding") == 1;
    assert TermShareSum(["coding"], ["coding"]) == 1.0;
  }

  lemma CodingLecture()
    ensures LectureRelevance(AllCoding.lectures, ["coding"]) == 0.1
  {
    CodingIsLowerWord();
    ContainsSelf("coding");
    assert TermHits("coding", ["coding"]) == 1;
    assert LectureShareSum(AllCoding.lectures, ["coding"]) == 1.0;
  }

  lemma CodingSemantic()
    ensures SemanticSimilarity(AllCoding, ["coding"], TechKeywords) >= 0.1
  {
    var text := SemanticText(AllCoding);
    CodingIsLowerWord();
    assert text == Lower("coding" + " " + "coding" + " " + "coding" + " " + "coding");
    assert text[..6] == "coding";
    OccursContains(text, "coding", 0);
    ContainsSelf("coding");
    assert TechKeywords[0].keywords[0] == "coding";
    assert PairFires("coding", TechKeywords[0], text);
    assert BucketHits(["coding"][0], TechKeywords, text) > 0;
  }

  /**
   * The relevance percentage is not capped at 100: querying `coding`
   * against a course that is about nothing else yields at least 120 while
   * `aiScore` stops at 1.
   */
  lemma PercentageReaches120()
    ensures ApplyAIScoring([AllCoding], "coding")[0].relevancePercentage >= 120
    ensures ApplyAIScoring([AllCoding], "coding")[0].aiScore == 1.0
  {
    CodingIsLowerWord();
    PreprocessWord("coding");
    var terms := Preprocess(Some("coding"));
    assert terms == ["coding"];
    SimilarityReflexive(Some("coding"));
    CodingDescription();
    CodingLecture();
    CodingSemantic();
    var b := Weigh(AllCoding, "coding", terms);
    assert b.Total() >= 1.2;
    RoundMonotonic(120.0, b.Total() * 100.0);
  }
}

=== FILE: search.dfy ===
/**
 * The request flow of `aiSearchCourses` with the fetched candidates given
 * as a parameter, and the post-processing of `getSearchSuggestions`
 * (autocomplete) over the fetched rows.
 */
module Search {
  import opened Wrappers
  import opened Text
  import opened Seqs
  import opened Courses
  import opened Scoring
  import opened Ranking
  import opened Insights

  datatype SearchData = SearchData(
    courses: seq<Scored>,
    totalResults: nat,
    searchQuery: string,
    insights: Insights,
    suggestions: seq<string>)

  /** The JSON body and status: 400 with a message, or 200 with data. */
  datatype Response = BadRequest(message: string) | Ok(message: string, data: SearchData)

  const TooShort: string := "Search query must be at least 2 characters long"

  /** `!query || query.trim().length < 2`. */
  predicate Rejected(query: Option<string>)
  {
    !Truthy(query) || |Trim(query.value)| < 2
  }

  /**
   * `aiSearchCourses` for the request parameters `query` and `sortBy`,
   * where `fetched` is what the candidate fetch returned: a 400 for a
   * missing or short query; the canned empty answer when nothing was
   * fetched; otherwise every fetched course scored, sorted, summarised and
   * counted.
   */
  function AiSearchCourses(query: Option<string>, sortBy: Option<string>, fetched: seq<Course>): (r: Response)
    ensures r.BadRequest? <==> Rejected(query)
    ensures r.BadRequest? ==> r.message == TooShort
    ensures r.Ok? ==> r.data.searchQuery == query.value && r.data.totalResults == |fetched| == |r.data.courses|
    ensures r.Ok? && fetched == [] ==>
      r.message == NoResultsSummary && r.data.insights == NoResults(NoResultsSummary, NoResultsTips)
      && r.data.suggestions == []
    ensures r.Ok? && fetched != [] ==>
      && r.message == "Found " + NatToString(|fetched|) + " courses matching your search"
      && multiset(r.data.courses) == multiset(ApplyAIScoring(fetched, query.value))
      && Sorted(ParseSortBy(sortBy), r.data.courses)
      && r.data.insights == GenerateInsights(r.data.courses)
      && |r.data.suggestions| == 5
      && r.data.suggestions == Suggestions(query, r.data.courses)
      && forall k :: WithKey(ParseSortBy(sortBy), r.data.courses, k)
                  == WithKey(ParseSortBy(sortBy), ApplyAIScoring(fetched, query.value), k)
  {
    if Rejected(query) then BadRequest(TooShort)
    else if |fetched| == 0 then
      Ok(NoResultsSummary, SearchData([], 0, query.value, NoResults(NoResultsSummary, NoResultsTips), []))
    else
      var q := query.value;
      var scored := ApplyAIScoring(fetched, q);
      var sorted := Sort(ParseSortBy(sortBy), scored);
      SortStableAll(ParseSortBy(sortBy), scored);
      Ok("Found " + NatToString(|sorted|) + " courses matching your search",
         SearchData(sorted, |sorted|, q, GenerateInsights(sorted), Suggestions(query, sorted)))
  }

  /** Validation happens before the fetch: a rejected query is rejected whatever the data. */
  lemma RejectionIgnoresData(query: Option<string>, s1: Option<string>, s2: Option<string>, f1: seq<Course>, f2: seq<Course>)
    requires AiSearchCourses(query, s1, f1).BadRequest?
    ensures AiSearchCourses(query, s2, f2) == AiSearchCourses(query, s1, f1)
  {
  }

  /** Every returned course is one of the fetched courses, scored. */
  lemma ResultsComeFromFetched(query: Option<string>, sortBy: Option<string>, fetched: seq<Course>, i: int)
    requires AiSearchCourses(query, sortBy, fetched).Ok?
    requires 0 <= i < |AiSearchCourses(query, sortBy, fetched).data.courses|
    ensures AiSearchCourses(query, sortBy, fetched).data.courses[i].course in fetched
  {
    var r := AiSearchCourses(query, sortBy, fetched);
    var scored := ApplyAIScoring(fetched, query.value);
    var x := r.data.courses[i];
    assert x in multiset(r.data.courses);
    assert x in scored;
    var j :| 0 <= j < |scored| && scored[j] == x;
    assert x.course == fetched[j];
  }

  /** Under the default ordering the best `aiScore` comes first. */
  lemma DefaultOrderBestFirst(query: Option<string>, fetched: seq<Course>, i: int, j: int)
    requires AiSearchCourses(query, None, fetched).Ok?
    requires 0 <= i < j < |AiSearchCourses(query, None, fetched).data.courses|
    ensures AiSearchCourses(query, None, fetched).data.courses[i].aiScore
         >= AiSearchCourses(query, None, fetched).data.courses[j].aiScore
  {
    var r := AiSearchCourses(query, None, fetched);
    assert Key(Relevance, r.data.courses[i]) <= Key(Relevance, r.data.courses[j]);
  }

  // ---------------------------------------------------------------------
  // Autocomplete (`getSearchSuggestions`)

  /** A fetched row: the projection `{courseTitle, category}`. */
  datatype SuggestionRow = SuggestionRow(title: Option<string>, category: Option<string>)

  const FetchLimit: nat := 10
  const SuggestionLimit: nat := 8

  function TitlesOf(rows: seq<SuggestionRow>): (r: seq<Option<string>>)
    ensures |r| == |rows| && forall i :: 0 <= i < |r| ==> r[i] == rows[i].title
  {
    seq(|rows|, i requires 0 <= i < |rows| => rows[i].title)
  }

  function CategoriesOfRows(rows: seq<SuggestionRow>): (r: seq<Option<string>>)
    ensures |r| == |rows| && forall i :: 0 <= i < |r| ==> r[i] == rows[i].category
  {
    seq(|rows|, i requires 0 <= i < |rows| => rows[i].category)
  }

  /** `.filter(suggestion => suggestion && suggestion.length > 0)`. */
  function NonEmpty(xs: seq<string>): (r: seq<string>)
    ensures forall i :: 0 <= i < |r| ==> r[i] != ""
    decreases |xs|
  {
    if |xs| == 0 then []
    else if xs[0] == "" then NonEmpty(xs[1..])
    else [xs[0]] + NonEmpty(xs[1..])
  }

  lemma {:induction false} NonEmptyKeeps(xs: seq<string>)
    requires forall i :: 0 <= i < |xs| ==> xs[i] != ""
    ensures NonEmpty(xs) == xs
    decreases |xs|
  {
    if |xs| > 0 {
      NonEmptyKeeps(xs[1..]);
    }
  }

  /** `!q || q.length < 2`: the untrimmed length counts. */
  predicate AutocompleteSkipped(q: Option<string>)
  {
    !Truthy(q) || |q.value| < 2
  }

  /** Titles then categories of the first ten rows, present values only. */
  function Labels(rows: seq<SuggestionRow>): seq<string>
  {
    var top := Take(rows, FetchLimit);
    Present(TitlesOf(top)) + Present(CategoriesOfRows(top))
  }

  /**
   * The autocomplete answer for `q` over the rows the lookup returned: empty
   * for a missing or one-character `q`; otherwise the distinct titles and
   * categories of the first ten rows, titles first, at most eight.
   */
  function Autocomplete(q: Option<string>, rows: seq<SuggestionRow>): (r: seq<string>)
    ensures AutocompleteSkipped(q) ==> r == []
    ensures |r| <= SuggestionLimit
    ensures NoDup(r)
    ensures forall i :: 0 <= i < |r| ==> r[i] != "" && r[i] in Labels(rows)
    ensures !AutocompleteSkipped(q) ==> r == Take(Dedup(Labels(rows)), SuggestionLimit)
  {
    if AutocompleteSkipped(q) then []
    else
      var unique := Dedup(Labels(rows));
      forall i | 0 <= i < |unique| ensures unique[i] != "" {
        assert unique[i] in Labels(rows);
      }
      NonEmptyKeeps(unique);
      TakeNoDup(unique, SuggestionLimit);
      Take(NonEmpty(unique), SuggestionLimit)
  }

  /** Titles come before categories: a title suggestion is preceded only by titles. */
  lemma TitlesFirst(q: Option<string>, rows: seq<SuggestionRow>, i: int, j: int)
    requires 0 <= i < j < |Autocomplete(q, rows)|
    requires Autocomplete(q, rows)[j] in Present(TitlesOf(Take(rows, FetchLimit)))
    ensures Autocomplete(q, rows)[i] in Present(TitlesOf(Take(rows, FetchLimit)))
  {
    var r := Autocomplete(q, rows);
    var top := Take(rows, FetchLimit);
    var titles, cats := Present(TitlesOf(top)), Present(CategoriesOfRows(top));
    DedupOrder(titles + cats, i, j);
    IndexOfConcat(titles, cats, r[j]);
    IndexOfConcat(titles, cats, r[i]);
  }

  /** Suggestions appear in the order their labels first appear. */
  lemma AutocompleteOrder(q: Option<string>, rows: seq<SuggestionRow>, i: int, j: int)
    requires 0 <= i < j < |Autocomplete(q, rows)|
    ensures IndexOf(Labels(rows), Autocomplete(q, rows)[i]) < IndexOf(Labels(rows), Autocomplete(q, rows)[j])
  {
    DedupOrder(Labels(rows), i, j);
  }

  /** Only rows within the fetch limit contribute. */
  lemma OnlyFirstTenRows(q: Option<string>, rows: seq<SuggestionRow>, extra: seq<SuggestionRow>)
    requires |rows| >= FetchLimit
    ensures Autocomplete(q, rows + extra) == Autocomplete(q, rows)
  {
    assert Take(rows + extra, FetchLimit) == Take(rows, FetchLimit);
  }

  /**
   * The two endpoints validate differently: autocomplete counts the raw
   * length, search counts the trimmed length, so two spaces pass one and
   * fail the other.
   */
  lemma BlankQueryValidation()
    ensures Rejected(Some("  "))
    ensures !AutocompleteSkipped(Some("  "))
  {
    var t := TrimStart("  ");
    assert AllSpace("  "[..2 - |t|]);
  }
}

=== FILE: seqs.dfy ===
/**
 * Sequence helpers: JavaScript's `[...new Set(s)]` (deduplication in
 * first-occurrence order), `slice(0, n)` and `filter(Boolean)` on optional
 * strings.
 */
module Seqs {
  import opened Wrappers

  /** No element occurs twice. */
  predicate NoDup<T(==)>(s: seq<T>)
  {
    forall i, j :: 0 <= i < j < |s| ==> s[i] != s[j]
  }

  /** Position of the first occurrence of `x` in `s`. */
  function IndexOf<T(==)>(s: seq<T>, x: T): (i: nat)
    requires x in s
    ensures i < |s| && s[i] == x
  {
    if s[0] == x then 0 else 1 + IndexOf(s[1..], x)
  }

  /** Appending does not move a first occurrence that is already there. */
  lemma {:induction false} IndexOfAppend<T>(s: seq<T>, x: T, y: T)
    requires y in s
    ensures IndexOf(s + [x], y) == IndexOf(s, y)
  {
    if s[0] != y {
      assert (s + [x])[1..] == s[1..] + [x];
      IndexOfAppend(s[1..], x, y);
    }
  }

  /** A first occurrence lies in the left part of a concatenation exactly when the element does. */
  lemma {:induction false} IndexOfConcat<T>(a: seq<T>, b: seq<T>, x: T)
    requires x in a + b
    ensures IndexOf(a + b, x) < |a| <==> x in a
    ensures x in a ==> IndexOf(a + b, x) == IndexOf(a, x)
  {
    if |a| > 0 && a[0] != x {
      assert (a + b)[1..] == a[1..] + b;
      IndexOfConcat(a[1..], b, x);
    }
  }

  /**
   * `[...new Set(s)]`: keeps the first occurrence of every element. The
   * order of first occurrence is `DedupOrder`.
   */
  function Dedup<T(==)>(s: seq<T>): (r: seq<T>)
    ensures NoDup(r)
    ensures forall i :: 0 <= i < |r| ==> r[i] in s
    ensures forall i :: 0 <= i < |s| ==> s[i] in r
    decreases |s|
  {
    if |s| == 0 then []
    else
      var p, x := s[..|s| - 1], s[|s| - 1];
      var d := Dedup(p);
      assert forall i :: 0 <= i < |p| ==> s[i] == p[i];
      DedupStep(s, d);
      if x in d then d else d + [x]
  }

  /** One step of `Dedup`: extending the input by its last element keeps its contract. */
  lemma DedupStep<T>(s: seq<T>, d: seq<T>)
    requires |s| > 0
    requires NoDup(d)
    requires forall i :: 0 <= i < |d| ==> d[i] in s[..|s| - 1]
    requires forall i :: 0 <= i < |s| - 1 ==> s[i] in d
    ensures var r := if s[|s| - 1] in d then d else d + [s[|s| - 1]];
      && NoDup(r)
      && (forall i :: 0 <= i < |r| ==> r[i] in s)
      && (forall i :: 0 <= i < |s| ==> s[i] in r)
  {
    var p, x := s[..|s| - 1], s[|s| - 1];
    var r := if x in d then d else d + [x];
    forall i | 0 <= i < |r| ensures r[i] in s {
      if i < |d| {
        assert r[i] == d[i] && d[i] in p;
      }
    }
    forall i | 0 <= i < |s| ensures s[i] in r {
    }
  }

  /**
   * `Dedup` keeps the order of first occurrence: an earlier entry of the
   * result first occurs earlier in the input.
   */
  lemma {:induction false} DedupOrder<T>(s: seq<T>, i: int, j: int)
    requires 0 <= i < j < |Dedup(s)|
    ensures IndexOf(s, Dedup(s)[i]) < IndexOf(s, Dedup(s)[j])
    decreases |s|
  {
    var p, x := s[..|s| - 1], s[|s| - 1];
    var d := Dedup(p);
    assert s == p + [x];
    var r := Dedup(s);
    assert r == if x in d then d else d + [x];
    assert r[i] == d[i] && d[i] in p;
    IndexOfAppend(p, x, d[i]);
    if j < |d| {
      assert r[j] == d[j] && d[j] in p;
      IndexOfAppend(p, x, d[j]);
      DedupOrder(p, i, j);
    } else {
      assert x !in p;
      IndexOfConcat(p, [x], x);
    }
  }

  /** After deduplication an element of the left block is preceded only by left-block elements. */
  lemma DedupBlocks<T>(a: seq<T>, b: seq<T>, i: int, j: int)
    requires 0 <= i < j < |Dedup(a + b)|
    requires Dedup(a + b)[j] in a
    ensures Dedup(a + b)[i] in a
  {
    var d := Dedup(a + b);
    DedupOrder(a + b, i, j);
    IndexOfConcat(a, b, d[i]);
    IndexOfConcat(a, b, d[j]);
  }

  /** Deduplicating a duplicate-free sequence changes nothing. */
  lemma {:induction false} DedupNoDup<T>(s: seq<T>)
    requires NoDup(s)
    ensures Dedup(s) == s
    decreases |s|
  {
    if |s| > 0 {
      var p, x := s[..|s| - 1], s[|s| - 1];
      assert NoDup(p) by {
        forall i, j | 0 <= i < j < |p| ensures p[i] != p[j] {
          assert p[i] == s[i] && p[j] == s[j];
        }
      }
      DedupNoDup(p);
      assert x !in p by {
        forall i | 0 <= i < |p| ensures p[i] != x {
          assert p[i] == s[i];
        }
      }
      assert Dedup(s) == Dedup(p) + [x];
    }
  }

  /** Deduplication keeps the first element first. */
  lemma DedupHead<T>(s: seq<T>)
    requires |s| > 0
    ensures |Dedup(s)| > 0 && Dedup(s)[0] == s[0]
  {
    var r := Dedup(s);
    assert s[0] in r;
    var j :| 0 <= j < |r| && r[j] == s[0];
    if j > 0 {
      DedupOrder(s, 0, j);
    }
  }

  /** `s.slice(0, n)`. */
  function Take<T>(s: seq<T>, n: nat): (r: seq<T>)
    ensures |r| == if |s| < n then |s| else n
    ensures r == s[..|r|]
  {
    if |s| < n then s else s[..n]
  }

  lemma TakeNoDup<T>(s: seq<T>, n: nat)
    requires NoDup(s)
    ensures NoDup(Take(s, n))
  {
  }

  /** The set of elements of a sequence. */
  function Elems<T>(s: seq<T>): set<T>
  {
    set x | x in s
  }

  lemma {:induction false} ElemsCard<T>(s: seq<T>)
    ensures |Elems(s)| <= |s|
    ensures NoDup(s) ==> |Elems(s)| == |s|
  {
    if |s| > 0 {
      var t := s[..|s| - 1];
      ElemsCard(t);
      assert Elems(s) == Elems(t) + {s[|s| - 1]};
      if NoDup(s) {
        assert s[|s| - 1] !in Elems(t);
      }
    }
  }

  /** A duplicate-free sequence is no longer than any sequence containing all of its elements. */
  lemma NoDupLength<T>(t: seq<T>, s: seq<T>)
    requires NoDup(t)
    requires forall i :: 0 <= i < |t| ==> t[i] in s
    ensures |t| <= |s|
  {
    ElemsCard(t);
    ElemsCard(s);
    assert Elems(t) <= Elems(s);
    assert Elems(s) == Elems(t) + (Elems(s) - Elems(t));
  }

  /** `xs.filter(Boolean)` over optional strings: keeps the present, non-empty ones. */
  function Present(xs: seq<Option<string>>): (r: seq<string>)
    ensures |r| <= |xs|
    ensures forall x :: x in r <==> x != "" && Some(x) in xs
    decreases |xs|
  {
    if |xs| == 0 then []
    else
      var rest := Present(xs[1..]);
      assert forall x :: Some(x) in xs <==> Some(x) == xs[0] || Some(x) in xs[1..];
      if xs[0].Some? && xs[0].value != "" then [xs[0].value] + rest else rest
  }

  /** The first kept value is the first present one. */
  lemma {:induction false} PresentFirst(xs: seq<Option<string>>, i: nat)
    requires i < |xs| && xs[i].Some? && xs[i].value != ""
    requires forall j :: 0 <= j < i ==> xs[j].None? || xs[j].value == ""
    ensures |Present(xs)| > 0 && Present(xs)[0] == xs[i].value
    decreases i
  {
    if i > 0 {
      PresentFirst(xs[1..], i - 1);
    }
  }

  /** `[...new Set(xs.filter(Boolean))]`: the distinct present values, in first-occurrence order. */
  function DistinctPresent(xs: seq<Option<string>>): (r: seq<string>)
    ensures NoDup(r)
    ensures forall x :: x in r <==> x != "" && Some(x) in xs
    ensures forall i :: 0 <= i < |r| ==> r[i] in Present(xs)
  {
    Dedup(Present(xs))
  }
}

=== FILE: signals.dfy ===
/**
 * The helper signals of the scorer: description relevance, popularity,
 * lecture relevance, the keyword-bucket semantic bonus, and the matched
 * terms reported for highlighting.
 */
module Signals {
  import opened Wrappers
  import opened Text
  import opened Seqs
  import opened TextSimilarity
  import opened Courses

  function RealMin(a: real, b: real): (r: real)
    ensures r <= a && r <= b && (r == a || r == b)
  {
    if a <= b then a else b
  }

  // ---------------------------------------------------------------------
  // Description relevance (`calculateDescriptionRelevance`)

  /** Drops empty words: `.filter(word => word.length > 0)`. */
  function NonEmptyWords(words: seq<string>): (r: seq<string>)
    ensures |r| <= |words|
    ensures forall w :: w in r <==> w in words && w != ""
    decreases |words|
  {
    if |words| == 0 then []
    else if words[0] == "" then NonEmptyWords(words[1..])
    else [words[0]] + NonEmptyWords(words[1..])
  }

  /** `description.toLowerCase().split(/\s+/).filter(word => word.length > 0)`. */
  function DescriptionWords(description: string): seq<string>
  {
    NonEmptyWords(SplitWs(Lower(description)))
  }

  /** Number of words related to `term` by containment either way. */
  function CountRelated(words: seq<string>, term: string): (n: nat)
    ensures n <= |words|
    ensures n > 0 <==> exists j :: 0 <= j < |words| && Related(words[j], term)
    decreases |words|
  {
    if |words| == 0 then 0
    else
      var rest := CountRelated(words[1..], term);
      assert forall j :: 0 <= j < |words[1..]| ==> words[1..][j] == words[j + 1];
      (if Related(words[0], term) then 1 else 0) + rest
  }

  /** Some description word and some term are related. */
  predicate AnyRelated(words: seq<string>, terms: seq<string>)
  {
    exists k :: 0 <= k < |terms| && CountRelated(words, terms[k]) > 0
  }

  /** Sum over the terms of the share of description words each term matches. */
  function TermShareSum(terms: seq<string>, words: seq<string>): (r: real)
    requires |words| > 0
    ensures 0.0 <= r
    ensures r > 0.0 <==> AnyRelated(words, terms)
    decreases |terms|
  {
    if |terms| == 0 then 0.0
    else
      var n := CountRelated(words, terms[0]);
      RatioBounds(n, |words|);
      var rest := TermShareSum(terms[1..], words);
      assert AnyRelated(words, terms) <==> n > 0 || AnyRelated(words, terms[1..]) by {
        assert forall k :: 0 <= k < |terms[1..]| ==> terms[1..][k] == terms[k + 1];
      }
      n as real / |words| as real + rest
  }

  /**
   * `calculateDescriptionRelevance(description, queryTerms)`: within [0, 1],
   * and positive exactly when the description is present and one of its
   * words contains, or is contained in, one of the terms.
   */
  function DescriptionRelevance(description: Option<string>, terms: seq<string>): (r: real)
    ensures 0.0 <= r <= 1.0
    ensures r > 0.0 <==> Truthy(description) && AnyRelated(DescriptionWords(description.value), terms)
  {
    if !Truthy(description) || |terms| == 0 then 0.0
    else
      var words := DescriptionWords(description.value);
      if |words| == 0 then 0.0
      else RealMin(TermShareSum(terms, words), 1.0)
  }

  // ---------------------------------------------------------------------
  // Popularity (`calculatePopularityScore`)

  /** `Math.max(0, count || 0)`: a missing or negative count reads as zero. */
  function SafeCount(count: Option<int>): (n: nat)
    ensures count.None? ==> n == 0
    ensures count.Some? && count.value >= 0 ==> n == count.value
    ensures count.Some? && count.value < 0 ==> n == 0
  {
    var c := count.GetOr(0);
    if c > 0 then c else 0
  }

  /** `Math.min(count / cap, 1)`. */
  function Saturating(n: nat, cap: nat): (r: real)
    requires cap > 0
    ensures 0.0 <= r <= 1.0
    ensures r == 1.0 <==> n >= cap
  {
    if n >= cap then 1.0
    else
      RatioBounds(n, cap);
      assert n as real / cap as real < 1.0 by {
        var q := n as real / cap as real;
        assert q * cap as real == n as real;
      }
      n as real / cap as real
  }

  /**
   * `calculatePopularityScore(enrolledCount, lectureCount)`: within [0, 1],
   * and exactly 1 when there are at least 100 enrolments and 20 lectures.
   */
  function Popularity(enrolled: Option<int>, lectures: Option<int>): (r: real)
    ensures 0.0 <= r <= 1.0
    ensures r == 1.0 <==> SafeCount(enrolled) >= 100 && SafeCount(lectures) >= 20
  {
    Saturating(SafeCount(enrolled), 100) * 0.7 + Saturating(SafeCount(lectures), 20) * 0.3
  }

  lemma SaturatingMonotonic(m: nat, n: nat, cap: nat)
    requires cap > 0 && m <= n
    ensures Saturating(m, cap) <= Saturating(n, cap)
  {
    if n < cap {
      var p, q := m as real / cap as real, n as real / cap as real;
      assert p * cap as real == m as real;
      assert q * cap as real == n as real;
      assert (q - p) * cap as real == (n - m) as real;
      assert Saturating(m, cap) == p;
      assert Saturating(n, cap) == q;
      RatioBounds(n - m, cap);
      assert q - p == (n - m) as real / cap as real by {
        var d := (n - m) as real / cap as real;
        assert d * cap as real == (n - m) as real;
        assert (p + d) * cap as real == q * cap as real;
        CancelFactor(p + d, q, cap as real);
      }
    }
  }

  lemma CancelFactor(x: real, y: real, c: real)
    requires c > 0.0 && x * c == y * c
    ensures x == y
  {
  }

  /** More enrolments or more lectures never lower the popularity score. */
  lemma PopularityMonotonic(e1: int, l1: int, e2: int, l2: int)
    requires e1 <= e2 && l1 <= l2
    ensures Popularity(Some(e1), Some(l1)) <= Popularity(Some(e2), Some(l2))
  {
    SaturatingMonotonic(SafeCount(Some(e1)), SafeCount(Some(e2)), 100);
    SaturatingMonotonic(SafeCount(Some(l1)), SafeCount(Some(l2)), 20);
  }

  /** Missing and negative counts, of enrolments or of lectures, score like zero. */
  lemma PopularityMissingIsZero(e: int, l: Option<int>, n: int, f: Option<int>)
    requires e <= 0 && n <= 0
    ensures Popularity(None, l) == Popularity(Some(0), l) == Popularity(Some(e), l)
    ensures Popularity(f, None) == Popularity(f, Some(0)) == Popularity(f, Some(n))
  {
  }

  /** Saturated inputs all score the same: 1000 enrolments and 100 lectures score like 100 and 20. */
  lemma PopularitySaturates(e: int, l: int)
    requires e >= 100 && l >= 20
    ensures Popularity(Some(e), Some(l)) == Popularity(Some(100), Some(20)) == 1.0
  {
  }

  // ---------------------------------------------------------------------
  // Lecture relevance (`analyzeLectureContent`)

  /** Number of terms contained in the lower-cased lecture title. */
  function TermHits(title: string, terms: seq<string>): (n: nat)
    ensures n <= |terms|
    ensures n > 0 <==> exists k :: 0 <= k < |terms| && Contains(Lower(title), terms[k])
    decreases |terms|
  {
    if |terms| == 0 then 0
    else
      var rest := TermHits(title, terms[1..]);
      assert forall k :: 0 <= k < |terms[1..]| ==> terms[1..][k] == terms[k + 1];
      (if Contains(Lower(title), terms[0]) then 1 else 0) + rest
  }

  /** The lecture has a title and its title contains one of the terms. */
  predicate LectureHit(l: Lecture, terms: seq<string>)
  {
    Truthy(l.title) && TermHits(l.title.value, terms) > 0
  }

  /** The share of the terms that one lecture title contains. */
  function LectureShare(title: string, terms: seq<string>): (r: real)
    requires |terms| > 0
    ensures 0.0 <= r <= 1.0
    ensures r > 0.0 <==> TermHits(title, terms) > 0
  {
    RatioBounds(TermHits(title, terms), |terms|);
    TermHits(title, terms) as real / |terms| as real
  }

  /** Sum over the lectures of the share of terms each title contains. */
  function LectureShareSum(lectures: seq<Lecture>, terms: seq<string>): (r: real)
    requires |terms| > 0
    ensures 0.0 <= r <= |lectures| as real
    ensures r > 0.0 <==> exists i :: 0 <= i < |lectures| && LectureHit(lectures[i], terms)
    decreases |lectures|
  {
    if |lectures| == 0 then 0.0
    else
      var l := lectures[0];
      var share := if Truthy(l.title) then LectureShare(l.title.value, terms) else 0.0;
      var rest := LectureShareSum(lectures[1..], terms);
      assert forall i :: 0 <= i < |lectures[1..]| ==> lectures[1..][i] == lectures[i + 1];
      share + rest
  }

  /**
   * `analyzeLectureContent(lectures, queryTerms)`: within [0, 0.1], and
   * positive exactly when some lecture title contains some term.
   */
  function LectureRelevance(lectures: seq<Lecture>, terms: seq<string>): (r: real)
    ensures 0.0 <= r <= 0.1
    ensures r > 0.0 <==> |terms| > 0 && exists i :: 0 <= i < |lectures| && LectureHit(lectures[i], terms)
  {
    if |lectures| == 0 || |terms| == 0 then 0.0
    else
      var total := LectureShareSum(lectures, terms);
      assert 0.0 <= total / |lectures| as real by {
        var q := total / |lectures| as real;
        assert q * |lectures| as real == total;
      }
      assert total > 0.0 ==> total / |lectures| as real > 0.0 by {
        var q := total / |lectures| as real;
        assert q * |lectures| as real == total;
      }
      RealMin(total / |lectures| as real, 0.1)
  }

  // ---------------------------------------------------------------------
  // Semantic similarity (`calculateSemanticSimilarity`)

  /** A topical bucket of the keyword-association table. */
  datatype Bucket = Bucket(name: string, keywords: seq<string>)

  /** The source's keyword-association table, in its order. */
  const TechKeywords: seq<Bucket> := [
    Bucket("programming", ["coding", "development", "software", "computer", "tech"]),
    Bucket("web", ["html", "css", "javascript", "react", "frontend", "backend"]),
    Bucket("data", ["analytics", "science", "machine learning", "ai", "statistics"]),
    Bucket("design", ["ui", "ux", "graphic", "creative", "visual"]),
    Bucket("business", ["management", "marketing", "finance", "entrepreneurship"]),
    Bucket("language", ["english", "communication", "writing", "speaking"])
  ]

  /** `term.includes(category) || keywords.some(keyword => term.includes(keyword))`. */
  predicate TermFires(term: string, b: Bucket)
  {
    Contains(term, b.name) || exists i :: 0 <= i < |b.keywords| && Contains(term, b.keywords[i])
  }

  /** `keywords.some(keyword => courseText.includes(keyword)) || courseText.includes(category)`. */
  predicate TextFires(text: string, b: Bucket)
  {
    (exists i :: 0 <= i < |b.keywords| && Contains(text, b.keywords[i])) || Contains(text, b.name)
  }

  /** The bucket earns the term a bonus for this course text. */
  predicate PairFires(term: string, b: Bucket, text: string)
  {
    TermFires(term, b) && TextFires(text, b)
  }

  /** Number of buckets that fire for one term. */
  function BucketHits(term: string, table: seq<Bucket>, text: string): (n: nat)
    ensures n <= |table|
    ensures n > 0 <==> exists b :: 0 <= b < |table| && PairFires(term, table[b], text)
    decreases |table|
  {
    if |table| == 0 then 0
    else
      var rest := BucketHits(term, table[1..], text);
      assert forall b :: 0 <= b < |table[1..]| ==> table[1..][b] == table[b + 1];
      (if PairFires(term, table[0], text) then 1 else 0) + rest
  }

  /** Number of (term, bucket) pairs that fire. */
  function PairHits(terms: seq<string>, table: seq<Bucket>, text: string): (n: nat)
    ensures n > 0 <==> exists k :: 0 <= k < |terms| && BucketHits(terms[k], table, text) > 0
    decreases |terms|
  {
    if |terms| == 0 then 0
    else
      var rest := PairHits(terms[1..], table, text);
      assert forall k :: 0 <= k < |terms[1..]| ==> terms[1..][k] == terms[k + 1];
      BucketHits(terms[0], table, text) + rest
  }

  /** `${title || ''} ${subTitle || ''} ${description || ''} ${category || ''}`, lower-cased. */
  function SemanticText(c: Course): string
  {
    Lower(OrEmpty(c.title) + " " + OrEmpty(c.subtitle) + " " + OrEmpty(c.description) + " " + OrEmpty(c.category))
  }

  /**
   * `calculateSemanticSimilarity(course, queryTerms)` over the bucket table
   * `table`: each firing (term, bucket) pair adds 0.1, capped at 0.2, so the
   * result is 0, 0.1 or 0.2, and zero exactly when no pair fires.
   */
  function SemanticSimilarity(c: Course, terms: seq<string>, table: seq<Bucket>): (r: real)
    ensures r == 0.0 || r == 0.1 || r == 0.2
    ensures r == 0.0 <==> forall k :: 0 <= k < |terms| ==> BucketHits(terms[k], table, SemanticText(c)) == 0
  {
    if |terms| == 0 then 0.0
    else RealMin(PairHits(terms, table, SemanticText(c)) as real * 0.1, 0.2)
  }

  /**
   * The keyword `ai` of the data bucket matches inside ordinary words: the
   * term `training` fires that bucket.
   */
  lemma AiFiresInsideWords()
    ensures TermFires("training", TechKeywords[2])
  {
    assert "training"[2..4] == "ai";
    OccursContains("training", "ai", 2);
    assert TechKeywords[2].keywords[3] == "ai";
  }

  /** No term fires through the keyword `machine learning`: terms hold no whitespace. */
  lemma MultiWordKeywordNeverInTerm(term: string)
    requires NoSpace(term)
    ensures !Contains(term, "machine learning")
  {
    assert IsSpace("machine learning"[7]);
    if Contains(term, "machine learning") {
      var i := ContainsOccurs(term, "machine learning");
      OccursNoSpace(term, "machine learning", i);
    }
  }

  // ---------------------------------------------------------------------
  // Matched terms (`findMatchedTerms`)

  /** `${title || ''} ${subTitle || ''} ${description || ''}`, lower-cased. */
  function MatchText(c: Course): string
  {
    Lower(OrEmpty(c.title) + " " + OrEmpty(c.subtitle) + " " + OrEmpty(c.description))
  }

  /** `a` is obtained from `b` by deleting elements. */
  predicate IsSubsequence(a: seq<string>, b: seq<string>)
    decreases |b|
  {
    |a| <= |b| &&
    (|a| == 0 || (a[0] == b[0] && IsSubsequence(a[1..], b[1..])) || IsSubsequence(a, b[1..]))
  }

  /** `queryTerms.filter(term => term && courseText.includes(term))`. */
  function FilterContained(terms: seq<string>, text: string): (r: seq<string>)
    ensures IsSubsequence(r, terms)
    ensures forall t :: t in r <==> t in terms && t != "" && Contains(text, t)
    ensures forall t :: multiset(r)[t] == if t != "" && Contains(text, t) then multiset(terms)[t] else 0
    decreases |terms|
  {
    if |terms| == 0 then []
    else
      var rest := FilterContained(terms[1..], text);
      assert terms == [terms[0]] + terms[1..];
      if terms[0] != "" && Contains(text, terms[0]) then [terms[0]] + rest
      else
        assert |rest| == 0 || |rest| < |terms|;
        rest
  }

  /**
   * `findMatchedTerms(course, queryTerms)`: the terms, in query order and
   * with repeats, that occur in the lower-cased title, subtitle and
   * description; no other terms.
   */
  function MatchedTerms(c: Course, terms: seq<string>): (r: seq<string>)
    ensures IsSubsequence(r, terms)
    ensures forall t :: t in r <==> t in terms && t != "" && Contains(MatchText(c), t)
    ensures forall t :: multiset(r)[t] == if t != "" && Contains(MatchText(c), t) then multiset(terms)[t] else 0
  {
    FilterContained(terms, MatchText(c))
  }

  /** Filtering distributes over concatenation of the term list. */
  lemma {:induction false} FilterContainedConcat(a: seq<string>, b: seq<string>, text: string)
    ensures FilterContained(a + b, text) == FilterContained(a, text) + FilterContained(b, text)
    decreases |a|
  {
    if |a| > 0 {
      var ab := a + b;
      assert ab[0] == a[0] && ab[1..] == a[1..] + b;
      FilterContainedConcat(a[1..], b, text);
      var rest, tail := FilterContained(ab[1..], text), FilterContained(a[1..], text);
      var b' := FilterContained(b, text);
      assert rest == tail + b';
      if a[0] != "" && Contains(text, a[0]) {
        assert FilterContained(ab, text) == [a[0]] + rest;
        assert FilterContained(a, text) == [a[0]] + tail;
      } else {
        assert FilterContained(ab, text) == rest;
        assert FilterContained(a, text) == tail;
      }
    } else {
      assert a + b == b;
    }
  }

  /** Matched terms split along the query: each half keeps its own matches, repeats included. */
  lemma MatchedTermsConcat(c: Course, a: seq<string>, b: seq<string>)
    ensures MatchedTerms(c, a + b) == MatchedTerms(c, a) + MatchedTerms(c, b)
  {
    FilterContainedConcat(a, b, MatchText(c));
  }

  /** A found term typed twice is reported twice. */
  lemma MatchedTermsKeepRepeats(c: Course, w: string)
    requires w != "" && Contains(MatchText(c), w)
    ensures MatchedTerms(c, [w, w]) == [w, w]
  {
    FilterContainedConcat([w], [w], MatchText(c));
    assert [w, w] == [w] + [w];
  }
}

=== FILE: similarity.dfy ===
/**
 * Composite string similarity (`calculateSimilarity`): a substring match
 * scores 1; otherwise the better of the word-overlap ratio and 0.7 times
 * the normalised Levenshtein similarity.
 */
module TextSimilarity {
  import opened Wrappers
  import opened Text
  import opened Levenshtein

  /** `a.includes(b) || b.includes(a)`. */
  predicate Related(a: string, b: string)
  {
    Contains(a, b) || Contains(b, a)
  }

  /** `words.some(w => w.includes(word) || word.includes(w))`. */
  predicate MatchesSome(word: string, words: seq<string>)
  {
    exists k :: 0 <= k < |words| && Related(words[k], word)
  }

  /** Number of words of `words2` that match some word of `words1`. */
  function CommonWords(words2: seq<string>, words1: seq<string>): (n: nat)
    ensures n <= |words2|
    decreases |words2|
  {
    if |words2| == 0 then 0
    else (if MatchesSome(words2[0], words1) then 1 else 0) + CommonWords(words2[1..], words1)
  }

  /** A ratio of naturals with the numerator at most the denominator lies in [0, 1], and is positive when the numerator is. */
  lemma RatioBounds(n: nat, m: nat)
    requires 0 < m && n <= m
    ensures 0.0 <= n as real / m as real <= 1.0
    ensures n > 0 ==> n as real / m as real > 0.0
  {
    var q := n as real / m as real;
    assert q * m as real == n as real;
  }

  function RealMax(a: real, b: real): real
  {
    if a >= b then a else b
  }

  /** Word overlap: matched words of `str2` over the larger word count. */
  function Overlap(str1: string, str2: string): (r: real)
    ensures 0.0 <= r <= 1.0
  {
    var words1, words2 := SplitWs(str1), SplitWs(str2);
    var m := if |words1| >= |words2| then |words1| else |words2|;
    RatioBounds(CommonWords(words2, words1), m);
    CommonWords(words2, words1) as real / m as real
  }

  /** `1 - distance / longer length`; lies in [0, 1] because the distance never exceeds the longer length. */
  function LevenshteinScore(str1: string, str2: string): (r: real)
    requires |str1| > 0 || |str2| > 0
    ensures 0.0 <= r <= 1.0
    ensures str1 != str2 ==> r < 1.0
  {
    EditDistanceZero(str1, str2);
    RatioBounds(EditDistance(str1, str2), Max(|str1|, |str2|));
    1.0 - EditDistance(str1, str2) as real / Max(|str1|, |str2|) as real
  }

  /** Either lower-cased string contains the other. */
  predicate SubstringMatch(text1: string, text2: string)
  {
    Contains(Lower(text1), Lower(text2)) || Contains(Lower(text2), Lower(text1))
  }

  /**
   * `calculateSimilarity(text1, text2)`: zero when either text is missing
   * or empty, exactly one on a case-insensitive substring match, and always
   * within [0, 1].
   */
  function Similarity(text1: Option<string>, text2: Option<string>): (r: real)
    ensures 0.0 <= r <= 1.0
    ensures !Truthy(text1) || !Truthy(text2) ==> r == 0.0
    ensures Truthy(text1) && Truthy(text2) && SubstringMatch(text1.value, text2.value) ==> r == 1.0
    ensures Truthy(text1) && Truthy(text2) ==>
      var str1, str2 := Lower(text1.value), Lower(text2.value);
      && r >= Overlap(str1, str2)
      && r >= 0.7 * LevenshteinScore(str1, str2)
      && (!SubstringMatch(text1.value, text2.value) ==>
            r == Overlap(str1, str2) || r == 0.7 * LevenshteinScore(str1, str2))
  {
    if !Truthy(text1) || !Truthy(text2) then 0.0
    else
      var str1, str2 := Lower(text1.value), Lower(text2.value);
      if Contains(str1, str2) || Contains(str2, str1) then 1.0
      else RealMax(Overlap(str1, str2), LevenshteinScore(str1, str2) * 0.7)
  }

  /** Any present, non-empty text is fully similar to itself. */
  lemma SimilarityReflexive(t: Option<string>)
    requires Truthy(t)
    ensures Similarity(t, t) == 1.0
  {
    ContainsSelf(Lower(t.value));
  }

  /** Case does not matter: lower-casing either argument first changes nothing. */
  lemma SimilarityIgnoresCase(a: string, b: Option<string>)
    ensures Similarity(Some(Lower(a)), b) == Similarity(Some(a), b)
    ensures Similarity(b, Some(Lower(a))) == Similarity(b, Some(a))
  {
    LowerIdempotent(a);
  }

  /**
   * Between two single words, a fuzzy match never reaches the score of a
   * substring match: without containment the score stays below 0.7.
   */
  lemma FuzzyWordsBelowExact(a: string, b: string)
    requires a != "" && b != ""
    requires NoSpace(Lower(a)) && NoSpace(Lower(b))
    requires !SubstringMatch(a, b)
    ensures Similarity(Some(a), Some(b)) < 0.7
  {
    var str1, str2 := Lower(a), Lower(b);
    SplitNoSpace(str1);
    SplitNoSpace(str2);
    assert !MatchesSome(str2, [str1]);
    assert CommonWords([str2], [str1]) == 0;
    assert Overlap(str1, str2) == 0.0;
    assert str1 != str2 by {
      if str1 == str2 {
        ContainsSelf(str1);
      }
    }
    assert LevenshteinScore(str1, str2) < 1.0;
  }

  /** Every word of `words2` matches when `words1` holds the empty word. */
  lemma {:induction false} EmptyWordMatchesAll(words2: seq<string>, words1: seq<string>)
    requires "" in words1
    ensures CommonWords(words2, words1) == |words2|
    decreases |words2|
  {
    if |words2| > 0 {
      var k :| 0 <= k < |words1| && words1[k] == "";
      ContainsEmpty(words2[0]);
      assert Related(words1[k], words2[0]);
      EmptyWordMatchesAll(words2[1..], words1);
    }
  }

  /**
   * A first text that starts with whitespace splits into a leading empty
   * word, which is a substring of every word: every word of the second text
   * then counts as common.
   */
  lemma LeadingSpaceOverlap(str1: string, str2: string)
    requires |str1| > 0 && IsSpace(str1[0])
    ensures CommonWords(SplitWs(str2), SplitWs(str1)) == |SplitWs(str2)|
  {
    SplitLeadingSpace(str1);
    EmptyWordMatchesAll(SplitWs(str2), SplitWs(str1));
  }
}

=== FILE: text.dfy ===
/**
 * Character classes and string helpers with the meaning JavaScript gives
 * them: `toLowerCase`, the regular-expression classes `\w` and `\s`,
 * `String.prototype.includes`, `trim`, `split(/\s+/)` and `join`.
 * Strings are sequences of characters; case mapping covers ASCII only.
 */
module Text {
  import opened Wrappers

  /** JavaScript truthiness of an optional string: present and non-empty. */
  predicate Truthy(s: Option<string>)
  {
    s.Some? && s.value != ""
  }

  /** The source's `s || ''`. */
  function OrEmpty(s: Option<string>): (r: string)
    ensures Truthy(s) ==> r == s.value
    ensures !Truthy(s) ==> r == ""
  {
    s.GetOr("")
  }

  /** `\s`: the ECMAScript WhiteSpace and LineTerminator code points. */
  predicate IsSpace(c: char)
  {
    c == ' ' || c == '\t' || c == '\n' || c == '\r' || c == '\U{000B}' || c == '\U{000C}'
    || c == '\U{00A0}' || c == '\U{1680}' || ('\U{2000}' <= c <= '\U{200A}')
    || c == '\U{2028}' || c == '\U{2029}' || c == '\U{202F}' || c == '\U{205F}'
    || c == '\U{3000}' || c == '\U{FEFF}'
  }

  /** `\w`: ASCII letters, digits and underscore. */
  predicate IsWordChar(c: char)
  {
    ('a' <= c <= 'z') || ('A' <= c <= 'Z') || ('0' <= c <= '9') || c == '_'
  }

  /** A word character that `toLowerCase` leaves alone. */
  predicate IsLowerWordChar(c: char)
  {
    ('a' <= c <= 'z') || ('0' <= c <= '9') || c == '_'
  }

  function LowerChar(c: char): (r: char)
    ensures IsWordChar(c) <==> IsLowerWordChar(r)
    ensures IsSpace(c) <==> IsSpace(r)
    ensures 'A' <= c <= 'Z' ==> r != c
    ensures !('A' <= c <= 'Z') ==> r == c
  {
    if 'A' <= c <= 'Z' then (c as int + 32) as char else c
  }

  /** `toLowerCase`, restricted to ASCII letters. */
  function Lower(s: string): (r: string)
    ensures |r| == |s|
    ensures forall i :: 0 <= i < |s| ==> r[i] == LowerChar(s[i])
  {
    seq(|s|, i requires 0 <= i < |s| => LowerChar(s[i]))
  }

  lemma LowerIdempotent(s: string)
    ensures Lower(Lower(s)) == Lower(s)
  {
  }

  /** `s.startsWith(p)`. */
  predicate StartsWith(s: string, p: string)
  {
    |p| <= |s| && s[..|p|] == p
  }

  predicate EndsWith(s: string, p: string)
  {
    |p| <= |s| && s[|s| - |p|..] == p
  }

  /** `s.includes(sub)`: `sub` occurs somewhere in `s`. */
  predicate Contains(s: string, sub: string)
    decreases |s|
  {
    StartsWith(s, sub) || (|s| > 0 && Contains(s[1..], sub))
  }

  /** `sub` occurs in `s` at position `i`. */
  predicate OccursAt(s: string, sub: string, i: int)
  {
    0 <= i && i + |sub| <= |s| && s[i..i + |sub|] == sub
  }

  /** A found occurrence witnesses `Contains`. */
  lemma {:induction false} OccursContains(s: string, sub: string, i: int)
    requires OccursAt(s, sub, i)
    ensures Contains(s, sub)
    decreases i
  {
    if i > 0 {
      assert s[1..][i - 1..i - 1 + |sub|] == s[i..i + |sub|];
      OccursContains(s[1..], sub, i - 1);
    }
  }

  /** `Contains` yields an occurrence position. */
  lemma {:induction false} ContainsOccurs(s: string, sub: string) returns (i: nat)
    requires Contains(s, sub)
    ensures OccursAt(s, sub, i)
    decreases |s|
  {
    if StartsWith(s, sub) {
      i := 0;
    } else {
      var k := ContainsOccurs(s[1..], sub);
      assert s[1..][k..k + |sub|] == s[k + 1..k + 1 + |sub|];
      i := k + 1;
    }
  }

  /** A piece of whitespace-free text is whitespace-free. */
  lemma OccursNoSpace(s: string, sub: string, i: int)
    requires NoSpace(s) && OccursAt(s, sub, i)
    ensures NoSpace(sub)
  {
    forall j | 0 <= j < |sub|
      ensures !IsSpace(sub[j])
    {
      assert sub[j] == s[i..i + |sub|][j] == s[i + j];
    }
  }

  lemma ContainsEmpty(s: string)
    ensures Contains(s, "")
  {
    assert StartsWith(s, "");
  }

  lemma ContainsSelf(s: string)
    ensures Contains(s, s)
  {
    assert StartsWith(s, s);
  }

  /** Any part of a concatenation is contained in it. */
  lemma ContainsInfix(a: string, b: string, c: string)
    ensures Contains(a + b + c, b)
  {
    var s := a + b + c;
    assert s[|a|..|a| + |b|] == b;
    OccursContains(s, b, |a|);
  }

  /** Containment is transitive. */
  lemma ContainsTrans(s: string, t: string, u: string)
    requires Contains(s, t) && Contains(t, u)
    ensures Contains(s, u)
  {
    var i := ContainsOccurs(s, t);
    var j := ContainsOccurs(t, u);
    assert s[i..i + |t|] == t;
    forall k | 0 <= k < |u|
      ensures s[i + j..i + j + |u|][k] == u[k]
    {
      assert u[k] == t[j + k] == s[i + j + k];
    }
    assert s[i + j..i + j + |u|] == u;
    OccursContains(s, u, i + j);
  }

  lemma ConcatAssoc<T>(a: seq<T>, b: seq<T>, c: seq<T>)
    ensures (a + b) + c == a + (b + c)
  {
  }

  /** Slices of slices, as the word-by-word proofs over `split` use them. */
  lemma NestedSlices(s: string, i: nat, p: nat)
    requires i <= p < |s|
    ensures s[i..][..p - i] == s[..p][i..]
    ensures s[i..][p - i + 1..] == s[p + 1..]
    ensures s[..p][..i] == s[..i]
  {
  }

  /** Every character of `t` occurs in `s`. */
  predicate CharsIn(t: string, s: string)
  {
    forall i :: 0 <= i < |t| ==> t[i] in s
  }

  /** Every character of `s` is `\s` whitespace. */
  predicate AllSpace(s: string)
  {
    forall i :: 0 <= i < |s| ==> IsSpace(s[i])
  }

  /** No character of `s` is `\s` whitespace. */
  predicate NoSpace(s: string)
  {
    forall i :: 0 <= i < |s| ==> !IsSpace(s[i])
  }

  /** Index of the first whitespace character of `s` at or after `i`, or `|s|`. */
  function NextSpace(s: string, i: nat): (j: nat)
    requires i <= |s|
    ensures i <= j <= |s|
    ensures j < |s| ==> IsSpace(s[j])
    ensures forall k :: i <= k < j ==> !IsSpace(s[k])
    decreases |s| - i
  {
    if i == |s| || IsSpace(s[i]) then i else NextSpace(s, i + 1)
  }

  /** Index just past the whitespace run starting at `i`. */
  function SkipSpace(s: string, i: nat): (j: nat)
    requires i <= |s|
    ensures i <= j <= |s|
    ensures j < |s| ==> !IsSpace(s[j])
    ensures forall k :: i <= k < j ==> IsSpace(s[k])
    decreases |s| - i
  {
    if i == |s| || !IsSpace(s[i]) then i else SkipSpace(s, i + 1)
  }

  /**
   * `s.split(/\s+/)`: the pieces between maximal whitespace runs. A leading
   * or trailing run yields an empty first or last piece, and `""` splits
   * into `[""]`.
   */
  function SplitWs(s: string): (r: seq<string>)
    ensures |r| >= 1
    decreases |s|
  {
    var i := NextSpace(s, 0);
    if i == |s| then [s]
    else [s[..i]] + SplitWs(s[SkipSpace(s, i)..])
  }

  /**
   * The pieces of `split(/\s+/)` hold no whitespace and only characters of
   * the input, and only the first and the last piece can be empty.
   */
  lemma {:induction false} SplitWsPieces(s: string)
    ensures forall k :: 0 <= k < |SplitWs(s)| ==> NoSpace(SplitWs(s)[k]) && CharsIn(SplitWs(s)[k], s)
    ensures forall k :: 0 < k < |SplitWs(s)| - 1 ==> SplitWs(s)[k] != ""
    decreases |s|
  {
    var i := NextSpace(s, 0);
    if i < |s| {
      var j := SkipSpace(s, i);
      var rest := SplitWs(s[j..]);
      SplitWsPieces(s[j..]);
      forall k | 0 <= k < |rest| ensures CharsIn(rest[k], s) {
        forall c | 0 <= c < |rest[k]| ensures rest[k][c] in s {
          assert rest[k][c] in s[j..];
        }
      }
      if j < |s| {
        assert SplitWs(s[j..])[0] == s[j..][..NextSpace(s[j..], 0)];
        assert s[j..][0] == s[j];
      }
    }
  }

  /** Unfolds `SplitWs` at a string that starts with a whitespace run of length `k`. */
  lemma SplitAfterRun(s: string, k: nat)
    requires 0 < k <= |s|
    requires forall n :: 0 <= n < k ==> IsSpace(s[n])
    requires k == |s| || !IsSpace(s[k])
    ensures SplitWs(s) == [""] + SplitWs(s[k..])
  {
    NextSpaceExact(s, 0, 0);
    SkipSpaceExact(s, 0, k);
  }

  /** Unfolds `SplitWs` at a string whose first piece `w` ends at a whitespace run `[i, k)`. */
  lemma SplitAfterWord(s: string, i: nat, k: nat)
    requires i < k <= |s|
    requires forall n :: 0 <= n < i ==> !IsSpace(s[n])
    requires forall n :: i <= n < k ==> IsSpace(s[n])
    requires k == |s| || !IsSpace(s[k])
    ensures SplitWs(s) == [s[..i]] + SplitWs(s[k..])
  {
    NextSpaceExact(s, 0, i);
    SkipSpaceExact(s, i, k);
  }

  /** `NextSpace` stops at the first whitespace character and nowhere else. */
  lemma {:induction false} NextSpaceExact(s: string, i: nat, k: nat)
    requires i <= k <= |s|
    requires forall n :: i <= n < k ==> !IsSpace(s[n])
    requires k == |s| || IsSpace(s[k])
    ensures NextSpace(s, i) == k
    decreases k - i
  {
    if i < k {
      NextSpaceExact(s, i + 1, k);
    }
  }

  /** `SkipSpace` stops at the end of the whitespace run and nowhere else. */
  lemma {:induction false} SkipSpaceExact(s: string, i: nat, k: nat)
    requires i <= k <= |s|
    requires forall n :: i <= n < k ==> IsSpace(s[n])
    requires k == |s| || !IsSpace(s[k])
    ensures SkipSpace(s, i) == k
    decreases k - i
  {
    if i < k {
      SkipSpaceExact(s, i + 1, k);
    }
  }

  /** Splitting a string that holds no whitespace gives the string itself. */
  lemma SplitNoSpace(s: string)
    requires NoSpace(s)
    ensures SplitWs(s) == [s]
  {
    assert NextSpace(s, 0) == |s|;
  }

  /** A string starting with whitespace splits into a leading empty piece. */
  lemma SplitLeadingSpace(s: string)
    requires |s| > 0 && IsSpace(s[0])
    ensures SplitWs(s)[0] == ""
  {
  }

  /** Trimming a string without whitespace leaves it unchanged. */
  lemma TrimNoSpace(s: string)
    requires NoSpace(s)
    ensures Trim(s) == s
  {
    assert TrimStart(s) == s;
  }

  /** Removes leading whitespace. */
  function TrimStart(s: string): (r: string)
    ensures |r| <= |s|
    ensures r == s[|s| - |r|..]
    ensures |r| > 0 ==> !IsSpace(r[0])
    ensures AllSpace(s[..|s| - |r|])
    decreases |s|
  {
    if |s| > 0 && IsSpace(s[0]) then TrimStart(s[1..]) else s
  }

  /** Removes trailing whitespace. */
  function TrimEnd(s: string): (r: string)
    ensures |r| <= |s|
    ensures r == s[..|r|]
    ensures |r| > 0 ==> !IsSpace(r[|r| - 1])
    ensures AllSpace(s[|r|..])
    decreases |s|
  {
    if |s| > 0 && IsSpace(s[|s| - 1]) then TrimEnd(s[..|s| - 1]) else s
  }

  /** `s.trim()`. */
  function Trim(s: string): (r: string)
    ensures |r| <= |s|
    ensures |r| > 0 ==> !IsSpace(r[0]) && !IsSpace(r[|r| - 1])
  {
    TrimEnd(TrimStart(s))
  }

  /** `parts.join(sep)`. */
  function Join(parts: seq<string>, sep: string): (r: string)
    ensures |parts| == 1 ==> r == parts[0]
    ensures |parts| > 1 ==> StartsWith(r, parts[0] + sep)
    decreases |parts|
  {
    if |parts| == 0 then ""
    else if |parts| == 1 then parts[0]
    else
      var rest := Join(parts[1..], sep);
      assert (parts[0] + sep + rest)[..|parts[0] + sep|] == parts[0] + sep;
      parts[0] + sep + rest
  }

  /** Whatever contains `p + rest` contains `p`. */
  lemma ContainsPrefix(s: string, p: string, rest: string)
    requires Contains(s, p + rest)
    ensures Contains(s, p)
  {
    ContainsInfix("", p, rest);
    assert "" + p + rest == p + rest;
    ContainsTrans(s, p + rest, p);
  }

  /** No ASCII capital letter occurs in `s`. */
  predicate NoCapitals(s: string)
  {
    forall i :: 0 <= i < |s| ==> !('A' <= s[i] <= 'Z')
  }

  /** Every character of a contained string occurs in the containing one. */
  lemma ContainsChar(s: string, sub: string, k: int)
    requires Contains(s, sub) && 0 <= k < |sub|
    ensures sub[k] in s
  {
    var i := ContainsOccurs(s, sub);
    assert s[i..i + |sub|][k] == s[i + k];
  }

  /** A character of a joined string comes from the separator or from one of the parts. */
  lemma {:induction false} JoinChar(parts: seq<string>, sep: string, c: char)
    requires c in Join(parts, sep)
    ensures c in sep || exists i :: 0 <= i < |parts| && c in parts[i]
    decreases |parts|
  {
    if |parts| > 1 {
      var rest := Join(parts[1..], sep);
      assert Join(parts, sep) == parts[0] + sep + rest;
      if c !in parts[0] && c !in sep {
        assert c in rest;
        JoinChar(parts[1..], sep, c);
        var i :| 0 <= i < |parts[1..]| && c in parts[1..][i];
        assert c in parts[i + 1];
      }
    }
  }

  /** Every part appears in the joined string. */
  lemma {:induction false} JoinContains(parts: seq<string>, sep: string, i: int)
    requires 0 <= i < |parts|
    ensures Contains(Join(parts, sep), parts[i])
    decreases |parts|
  {
    if |parts| == 1 {
      ContainsSelf(parts[0]);
    } else {
      var rest := Join(parts[1..], sep);
      assert Join(parts, sep) == parts[0] + sep + rest;
      if i == 0 {
        ContainsInfix("", parts[0], sep + rest);
        assert "" + parts[0] + (sep + rest) == parts[0] + sep + rest;
      } else {
        JoinContains(parts[1..], sep, i - 1);
        ContainsInfix(parts[0] + sep, rest, "");
        assert parts[0] + sep + rest + "" == parts[0] + sep + rest;
        ContainsTrans(Join(parts, sep), rest, parts[i]);
      }
    }
  }

  function DigitChar(d: nat): (c: char)
    requires d < 10
    ensures '0' <= c <= '9'
  {
    ('0' as int + d) as char
  }

  /** Decimal rendering of a natural number, as JavaScript prints it in a template string. */
  function NatToString(n: nat): (r: string)
    ensures |r| >= 1
    ensures forall i :: 0 <= i < |r| ==> '0' <= r[i] <= '9'
    decreases n
  {
    if n < 10 then [DigitChar(n)] else NatToString(n / 10) + [DigitChar(n % 10)]
  }

  /** Value of a string of decimal digits; inverse of `NatToString`. */
  function DigitsValue(s: string): nat
    requires forall i :: 0 <= i < |s| ==> '0' <= s[i] <= '9'
    decreases |s|
  {
    if |s| == 0 then 0
    else DigitsValue(s[..|s| - 1]) * 10 + (s[|s| - 1] as int - '0' as int)
  }

  lemma {:induction false} NatToStringRoundTrip(n: nat)
    ensures DigitsValue(NatToString(n)) == n
    decreases n
  {
    if n >= 10 {
      var s := NatToString(n);
      assert s[..|s| - 1] == NatToString(n / 10);
      NatToStringRoundTrip(n / 10);
    }
  }
}

=== FILE: wrappers.dfy ===
/** Optional values, standing in for JavaScript fields that may be absent. */
module Wrappers {

  /** A value that may be missing (`undefined` or `null` in the source). */
  datatype Option<+T> = None | Some(value: T) {

    /** Returns the wrapped value, or `default` when it is missing. */
    function GetOr(default: T): T
    {
      match this
      case Some(v) => v
      case None => default
    }
  }
}
